=== FILE: README.md ===
# git-synced, modelled in Dafny

git-synced keeps a chain of git branches in step. Each repository's
configuration lists branch rules. The remote branches those rules accept,
in rule order, form a chain such as `main -> develop -> release/1.0`. When a
branch is pushed, the service merges it into the next branch of the chain and
pushes the result. That push triggers the next hop, and so on down the chain.

All hop jobs run one at a time through a worker queue. A failed hop cancels
the repository's queued jobs. A merge conflict is meant to produce a pull
request and a notification mail. Any other failure leads to a fresh clone
and a resync.

This project models the pure logic of the service as Dafny functions over
immutable data, and proves what that logic promises. One module covers each
part of the service:

| module | models |
|---|---|
| `BranchPairs` | `getBranchPairs`: hop windowing over the chain, including lodash's descending ranges |
| `BranchName` | `parseBranchName`: stripping the remote or `heads` prefix from a ref |
| `Branches` | the ref filter of `retrieveGitBranches` and the rule-by-rule chain building of `getBranches` |
| `SyncConfig` | normalising the parsed YAML configuration: branch rules, the literal-name matcher, slash stripping, `git_config`, per-repository defaults |
| `WorkerQueue` | the job queue as a state machine with discrete steps (add, start, settle, cancel), plus an event log used to state ordering and single flight |
| `MergeErrors` | the `MergeError` constructor and its `toString` |
| `ConflictMail` | the pull-request options, the mail subject and the mail body |
| `Logger` | the log-line format of `write` |
| `Orchestrator` | the decisions in index.js: the push filter, the ref rewrite, one hop per push, the failure policy, the start-up resync |

Three modules hold shared helpers:
- `Outcomes`: `Option` for possibly-undefined values, `Result` for code that may throw, and `JsError`.
- `Seqs`: lodash-style sequence helpers.
- `Text`: JavaScript string operations.

External inputs are parameters. These include:
- the repository's ref list;
- whether a regular expression compiles, the regular-expression test and the sorters;
- the timestamp;
- the link target and owner derived from the remote URL;
- the pull-request URL;
- how git answered a merge;
- whether a re-clone succeeded.

Behaviour of the code worth knowing:
- **A rejected processor stops the queue.** A processor whose promise rejects is never cleared from the in-flight slot, so no later job ever starts (`WorkerQueue.RejectionStallsQueue`). In this service that happens after a failed job when the re-clone fails. It also happens when the resync that follows a re-clone meets a repository whose branch listing fails, because `Promise.all` then rejects (`Orchestrator.FinishJob`, `Orchestrator.StallsAfterFailure`).
- **After a re-clone, every repository is resynced when `SYNC_AT_START` is `'true'`.** The failure handler runs `queueSyncAtStart` again (index.js:73-74). That queues the hops of every configured repository, and only when `SYNC_AT_START` is exactly `'true'`.
- **A chain of at most two branches is returned as it is.** `getBranchPairs` hands back the branch names, and both callers treat them as pairs (see Findings).
- **There is no `stop`.** src/worker-queue.js documents a `stop` function but never defines one.

## Model

| member | source | states |
|---|---|---|
| BranchPairs.GetBranchPairs | src/get-branch-pairs.js:3-16 | The raw chain comes back, unchanged, exactly when it has at most two branches. "Branch not found" happens exactly when a longer chain lacks the start branch (defaulting to the first branch), and the error names that start. Both elements of every pair are chain members. |
| BranchPairs.AscendingShape | src/get-branch-pairs.js:12-15 | An ascending `_.range` window is exactly the consecutive hops `(b[k], b[k+1])` from `max(start, 0)` up to the end or the last branch with a successor, whichever comes first. Pairs holding `undefined` are dropped, not padded. |
| BranchPairs.DescendingShape | src/get-branch-pairs.js:12-15 | A descending `_.range` (end below start) from a position with a successor is exactly the consecutive hops counting down from the start to `max(end+1, 0)`. |
| BranchPairs.DescendingBelowZero | src/get-branch-pairs.js:13-15 | A descending window starting before index 0 yields no pairs. |
| BranchPairs.HopWindow | src/get-branch-pairs.js:8-15 | For a chain of more than two branches that contains the start, the result is exactly the consecutive hops from the first occurrence of the start, in chain order: `len-1-start` of them uncapped, and `min(k, len-1-start)` capped at `k >= 0`. |
| BranchPairs.CappedIsPrefix | src/get-branch-pairs.js:12-15 | A capped window is a prefix of the uncapped window. |
| BranchPairs.LastBranchGivesNoPairs | src/get-branch-pairs.js:8-15 | Starting at the last branch of a chain without repeats gives an empty list, not an error, whatever the cap. |
| BranchPairs.DefaultStartIsFirstBranch | src/get-branch-pairs.js:3 | An omitted start branch behaves as the first branch. Uncapped, on a chain of more than two branches, the result is exactly every consecutive pair of the chain, in order. |
| BranchPairs.NegativeCapWalksBackwards | src/get-branch-pairs.js:12 | A cap below -1 makes the range count down. The result is exactly the hops counting down from the start branch (or from the last branch with a successor) to position `max(start+cap+1, 0)`. |
| BranchName.ParseBranchName | src/parse-branch-name.js:1-5 | The result is always a suffix of the ref. If the ref contains the remote name, the result is what follows its first occurrence plus one character. Otherwise, if the ref contains `heads`, the same holds for `heads`. Otherwise the ref is unchanged. |
| BranchName.RemotePrefixedRef | src/parse-branch-name.js:2-4 | `<remote>/<branch>` strips to `<branch>`. |
| BranchName.RemoteTrackingRef | src/parse-branch-name.js:2-4 | `refs/remotes/<remote>/<branch>` strips to `<branch>` when the remote name first occurs right after `refs/remotes/`. |
| BranchName.LocalHeadRef | src/parse-branch-name.js:2-4 | `refs/heads/<branch>` strips to `<branch>` when the remote name does not occur in it. |
| Branches.RemoteBranchNames | src/retrieve-git-branches.js:11-15 | A name is listed exactly when some ref with that name is remote and its full name contains the remote, which defaults to `origin`. A local ref never qualifies, whatever its name. |
| Branches.RemoteBranchNamesConcat | src/retrieve-git-branches.js:14-15 | The selection distributes over concatenation of ref lists, so ref order is preserved. |
| Branches.FilterByRule | src/get-branches.js:5-11 | Fails exactly when the rule has no filter. Without a sort, the result is the accepted names in input order. With a permuting sort, it is a permutation of them, and a name is in it exactly when the rule accepts it. |
| Branches.Collect | src/get-branches.js:23 | The blocks are concatenated in rule order. This fails exactly when some rule lacks a filter. |
| Branches.GetBranches | src/get-branches.js:21-24 | The chain has no duplicates. It fails exactly when some rule lacks a filter. |
| Branches.CollectMembers | src/get-branches.js:23 | A branch is in the concatenated blocks exactly when it was retrieved and some rule accepts it. |
| Branches.CollectOrderAcrossRules | src/get-branches.js:23 | If x's first accepting rule comes before y's, then x first appears before y. |
| Branches.CollectOrderWithinRule | src/get-branches.js:8-23 | Two branches with the same first accepting rule keep the order of that rule's sorted block. |
| Branches.GetBranchesChain | src/get-branches.js:21-24 | On the de-duplicated chain: membership is "an `origin` remote branch some rule accepts". Order follows the first accepting rule, and within one rule it follows that rule's sort. |
| Seqs.Uniq | src/get-branches.js:23 | `_.uniq` gives no duplicates and the same members. |
| Seqs.UniqKeepsOrder | src/get-branches.js:23 | `_.uniq` keeps the relative order of first occurrences. |
| Seqs.UniqBy | src/send-conflict-mail.js:38 | `_.uniqBy` gives distinct keys and only input elements, and every input key is kept. |
| Seqs.UniqByKeepsOrder | src/send-conflict-mail.js:38 | `_.uniqBy` keeps the relative order of first occurrences. |
| Seqs.UniqByKeepsFirst | src/send-conflict-mail.js:38 | Each kept element is the first of the input with its key. |
| Outcomes.MapAll | src/get-sync-config.js:74 | `map` with a callback that may throw succeeds exactly when every call does, with one result per item, in order. Otherwise the error is that of the first throwing call, and every earlier call succeeded. |
| SyncConfig.FindNullKey | src/get-sync-config.js:14-16 | There is no name exactly when no value is null. Otherwise the name is the key of the first null-valued entry. |
| SyncConfig.LiteralAccepts | src/get-sync-config.js:21-24 | A literal rule accepts a branch exactly when, ignoring case, the branch equals the name, or ends in `/` and the name with no line terminator before that `/`. |
| SyncConfig.LiteralMatchPosition | src/get-sync-config.js:23 | A literal match can only be the last `len(name)` characters, preceded by nothing or by a `/`. |
| SyncConfig.StripSlashes | src/get-sync-config.js:31 | Without a line terminator, the result is the option with at most one leading and one trailing `/` removed, and a leading `/` is always removed. With one, the text is kept. |
| SyncConfig.StripSlashesUnwraps | src/get-sync-config.js:31 | `/p/` strips to `p`. |
| SyncConfig.StripSlashesDropsTrailing | src/get-sync-config.js:31 | `p/` strips to `p` for a pattern without a leading `/`: the trailing slash is removed. |
| SyncConfig.StripSlashesKeepsBarePattern | src/get-sync-config.js:31 | A pattern without edge slashes is kept. |
| SyncConfig.ParseBranchConfig | src/get-sync-config.js:18-41 | A string rule is named by the string, with a literal filter and the alphabetical sort. A null rule throws. An object rule is named by its first null-valued key. A truthy string `regex` becomes a slash-stripped pattern, a truthy non-string `regex` throws a TypeError, and a falsy or absent one leaves no filter. The sort is semver exactly when `sort` is `'semver'`. A list rule is named by its first null item's index, with no filter. Numbers and booleans give an unnamed rule with no filter. A SyntaxError is thrown exactly when the rule's pattern (`^(.*/)?<name>$` for a string rule, the stripped `regex` otherwise) does not compile. Every other error is a TypeError. |
| SyncConfig.ChainRule | src/get-sync-config.js:9-40 | The normalised rule has no filter exactly when none was configured. A literal rule accepts exactly the literal matches, and a pattern rule accepts what the regular expression accepts. There is always a sort: semver ascending or the alphabetical default. |
| SyncConfig.GitConfigItem | src/get-sync-config.js:44-47 | A one-key mapping gives its key and value. Only null throws. |
| SyncConfig.ParseGitConfig | src/get-sync-config.js:43-48 | A null document throws. A missing or null `git_config` gives an empty list. |
| SyncConfig.GitConfigSingleKeyEntries | src/get-sync-config.js:43-48 | A list of single-key entries gives one `{name, value}` per entry, in order. |
| SyncConfig.ParseRepository | src/get-sync-config.js:67-75 | An entry parses exactly when it is a mapping whose `local_path` is a string and whose `branches` is a list of rules that all parse (so every rule's pattern compiles). A failing rule's error propagates. The name is the first null-valued key. `remote_url` is copied. `remote_name` defaults to `origin` only when absent. `local_path` is always passed through path resolution, which is a parameter. Each branch item is parsed as a branch rule, in order. |
| SyncConfig.GetSyncConfig | src/get-sync-config.js:65-77 | The document parses exactly when its `git_config` parses, it is a mapping, and `repositories` is a list whose entries all parse; a `git_config` error propagates. `gitConfig` is the parsed `git_config`, and `repositories` holds each entry parsed as a repository, in order. |
| WorkerQueue.Start | src/worker-queue.js:35-39 | The new queue is empty and idle, and satisfies the queue invariant. |
| WorkerQueue.AddMessage | src/worker-queue.js:49-59 | A missing message or a processor that is not a function throws a TypeError and changes nothing. Otherwise exactly one entry is appended at the tail, with the label defaulting to `''` and the next ticket in sequence. The invariant is kept. |
| WorkerQueue.Process | src/worker-queue.js:3-17 | Nothing happens while a job is in flight or nothing is pending. Otherwise the head entry leaves the queue, becomes the in-flight job and its processor is invoked. Processing order is unchanged and the invariant is kept. |
| WorkerQueue.Settle | src/worker-queue.js:10-16 | Fulfilment clears the in-flight slot and resolves the job. Rejection leaves the job in the slot for good. Pending entries and processing order are unchanged. |
| WorkerQueue.Remaining | src/worker-queue.js:72 | Exactly the entries with another label are kept. |
| WorkerQueue.CancelAllPending | src/worker-queue.js:64-73 | Exactly the pending entries with the label are canceled and removed, and the label defaults to `''`. The others stay, the in-flight job is untouched, nothing is invoked, and the invariant is kept. |
| WorkerQueue.CancelLog | src/worker-queue.js:66-70 | Cancellation invokes nothing and starts or ends no job. The canceled tickets grow by exactly the tickets of the pending entries with the label. |
| WorkerQueue.CancelConserves | src/worker-queue.js:64-73 | After a cancellation, every ticket ever issued is still due to be processed or has been canceled. No message is silently lost. |
| WorkerQueue.CancelCanceled | src/worker-queue.js:64-73 | After a cancellation, every canceled ticket was issued and is not due to be processed. |
| WorkerQueue.CancelOrder | src/worker-queue.js:72 | The filter keeps the remaining entries in ticket order. |
| WorkerQueue.CancelKeepsValid | src/worker-queue.js:64-73 | Cancellation keeps the queue invariant. |
| WorkerQueue.CanceledLeavesOrder | src/worker-queue.js:64-73 | A canceled entry is no longer due to be processed. |
| WorkerQueue.ProcessKeepsValid | src/worker-queue.js:9-16 | Starting the head job keeps the invariant. |
| WorkerQueue.SettleKeepsValid | src/worker-queue.js:11-15 | Clearing a fulfilled job keeps the invariant. |
| WorkerQueue.RunKeepsValid | src/worker-queue.js:19-28 | The invariant holds after any sequence of adds, steps, settlements and cancellations. |
| WorkerQueue.QueueSafety | src/worker-queue.js:19-28 | From a fresh queue, under any operations: processors are invoked in submission order, never two at a time, and a canceled message is never invoked. |
| WorkerQueue.RejectionStallsQueue | src/worker-queue.js:10-16 | Once a processor rejects, no further processor is ever invoked. |
| WorkerQueue.Drain | src/worker-queue.js:19-28 | Running the loop with fulfilling processors processes every pending message in queue order and leaves the queue idle. |
| MergeErrors.NewMergeError | src/merge-error.js:7-13 | The message defaults to `'Merge Error occured'` and conflicts default to empty. `upstream` and `head` are copied from the third argument. A missing third argument throws a TypeError. |
| MergeErrors.ToString | src/merge-error.js:18-21 | The text starts with the message and a newline. With no conflicts, it is exactly that. |
| MergeErrors.ToStringLines | src/merge-error.js:18-21 | Split at newlines, the text gives back the message followed by the conflict lines. With no conflicts, an empty line follows the message. |
| MergeErrors.ConflictBecomesTypeError | src/merge-branch-pair.js:25-27 | The conflict error as written, built without the branch pair, is a TypeError. |
| MergeErrors.ConflictError | src/merge-branch-pair.js:59-61 | Corrected: the conflict error is a `MergeError` carrying the message, the conflicts and both branch names. |
| ConflictMail.PrOpts | src/send-conflict-mail.js:13-20 | The pull request goes from `err.upstream` (head) into `err.head` (base) in the named repository. Its title is `[git-synced]: confict for "<upstream>" -> "<head>"`. |
| ConflictMail.TitleNamesTheHop | src/send-conflict-mail.js:18 | Split at double quotes, the title gives back the two branch names when neither holds a quote. |
| ConflictMail.ListedConflicts | src/send-conflict-mail.js:38 | The listed conflicts have distinct paths, all come from the error, and every conflicting path is listed. |
| ConflictMail.ListedInFirstOccurrenceOrder | src/send-conflict-mail.js:38 | Listed conflicts keep their order in the error, and each is the first conflict with its path. |
| ConflictMail.FilesListEveryPathClosed | src/send-conflict-mail.js:39 | Corrected: every listed path appears as `<li>path</li>`. |
| ConflictMail.FilesListAsWrittenNeverCloses | src/send-conflict-mail.js:39 | The list as written for one conflict is `<h4>Files:</h4><ul><li>a<li></ul>` and holds no `</li>`. |
| ConflictMail.FilesListEveryPath | src/send-conflict-mail.js:39 | Whatever the item markup, the files section holds the rendered item of every listed conflict. |
| ConflictMail.RepoHtml | src/send-conflict-mail.js:41-42 | The result always contains the quoted repository name. It is a link exactly when the link target is non-empty: then it starts with `<a href="<target>">` and ends with `</a>`. Otherwise it is the quoted name alone. |
| ConflictMail.Parts | src/send-conflict-mail.js:37-54 | The description names upstream and head when both are truthy, and the ref otherwise. The PR paragraph is present exactly when a PR URL is, and links to it. The files section is present exactly when a conflict remains after de-duplication, and it then lists the de-duplicated conflicts with the given item markup. |
| ConflictMail.PrLink | src/send-conflict-mail.js:47 | The paragraph is non-empty exactly when the PR URL is truthy, and then it links to that URL. |
| ConflictMail.BodyShowsFiles | src/send-conflict-mail.js:49-55 | Whatever the files section contains, the body contains. |
| ConflictMail.BodyListsEveryPath | src/send-conflict-mail.js:38-54 | Every conflicting path of the error, repeated ones included, appears in the body as its rendered list item. |
| ConflictMail.ConflictMail | src/send-conflict-mail.js:37-64 | As written: the subject is `Merge conflict in "<name>"`, and every conflicting path appears in the body as `<li>path<li>`. |
| ConflictMail.IntendedConflictMail | src/send-conflict-mail.js:37-64 | Corrected: the same subject, and every conflicting path appears in the body as `<li>path</li>`. |
| Logger.Line | src/simple-logger.js:1-2 | Without a label (or with an empty one), the line is `[<ts>]: ` then the messages. With a label, it is `[<ts>] - <label>: ` then the messages. Messages are joined with single spaces. |
| Logger.Write | src/simple-logger.js:2 | The sink receives exactly one line, the formatted one. |
| Logger.EmptyLabelIsNoLabel | src/simple-logger.js:1-2 | An empty label is formatted exactly like no label. |
| Logger.TimestampReadsBack | src/simple-logger.js:2 | For a timestamp without `]`, the first `]` closes it, and the timestamp can be read back. |
| Logger.MessagesReadBack | src/simple-logger.js:2 | For messages without spaces, splitting what follows the header gives the messages back. |
| Orchestrator.PushMatches | index.js:118 | A push matches exactly when some rule accepts the ref and every earlier rule has a filter. It does not match exactly when every rule has a filter and none accepts. Reaching a rule without a filter throws a TypeError. |
| Orchestrator.QueuedRef | index.js:120 | A ref without `/heads/` is kept. |
| Orchestrator.HeadRefBecomesRemoteRef | index.js:120 | `refs/heads/<b>` becomes `refs/remotes/<remote>/<b>`. Only the first `/heads/` is replaced. |
| Orchestrator.QueuedRefNamesPushedBranch | index.js:120 | Rewriting a pushed ref and then stripping it as `mergeBranchPair` does gives the pushed branch back. |
| Orchestrator.QueueMergeJob | index.js:80-85 | The job is always accepted. It is appended last under the repository's label (`''` for an unnamed repository), with the queue's next ticket, which no pending entry holds and which is not yet due. The running job and the log are untouched, and the invariant is kept. |
| Orchestrator.OnPush | index.js:116-123 | A matching push appends exactly one job, for the rewritten ref and under the repository's label. A non-matching push leaves the queue unchanged. A TypeError from the filter propagates. |
| Orchestrator.NextHopAsWritten | index.js:55-60 | As written: on a chain of more than two branches it fails exactly when the start is missing. On a shorter chain the first item is a branch name. It fails exactly when that name is non-empty and not two characters long. A hop comes back only for a two-character name, split into two one-character refs. |
| Orchestrator.NextHop | index.js:53-60 | Corrected: fails exactly when the start is missing from a non-empty chain. A hop found starts at the job's ref and is a consecutive pair of the chain. There is no hop exactly when the start is the chain's last branch and occurs only there (or the chain is empty). |
| Orchestrator.PushMergesOneHop | index.js:55-60 | Corrected: on a chain without repeats, a job for branch i merges exactly `(b[i], b[i+1])`, or nothing for the last branch. |
| Orchestrator.NextHopAgreesOnLongChains | index.js:55-60 | For chains of more than two branches, the hop as written equals the uniform window of one. |
| Orchestrator.OnFailure | index.js:63-77 | Every failure cancels the repository's label. A `MergeError` leads to the mail, and anything else to a re-clone. |
| Orchestrator.MergeResultAsWritten | src/merge-branch-pair.js:56-65 | As written: a clean merge is no failure, and another git error passes through. A conflict ends in an ordinary failure whose error is a TypeError, never a `MergeError`. |
| Orchestrator.MergeResult | src/merge-branch-pair.js:56-65 | Corrected: a clean merge is no failure, and another git error passes through. A conflict is a `MergeError` with git's message, its conflicts and both branch names. |
| Orchestrator.HandlePushAsWritten | index.js:51-78 | As written: a chain or hop error re-clones. No hop means no merge. For the hop the as-written choice picked, a clean merge syncs it, a broken merge re-clones with git's error, and a conflict fails with a TypeError. Every failure is an ordinary error that cancels the repository's label and re-clones, so no mail is ever sent. |
| Orchestrator.HandlePush | index.js:51-78 | Corrected: a chain or hop error re-clones. No hop means no merge. A clean merge syncs that hop. A conflict is mailed with the hop's branches. Another git error re-clones. Every failure cancels the repository's label. |
| Orchestrator.ConflictIsReclonedAsWritten | index.js:67-76 | As written, a conflict is never mailed: it becomes an ordinary error and leads to a re-clone. |
| Orchestrator.HandlePushAgreesOnLongChains | index.js:51-78 | Apart from conflicts, the handler as written and the corrected one agree on chains of more than two branches. |
| Orchestrator.FirstChar | index.js:96 | `[head]` of a string is `undefined` exactly for the empty string, and otherwise the string's first character. |
| Orchestrator.AllHopsFromFirst | index.js:95 | With its defaults, `getBranchPairs` returns a chain of at most two branches unchanged, and a longer one as exactly every consecutive pair, in order. |
| Orchestrator.SyncRefsAsWritten | index.js:95-96 | As written: a chain of more than two branches queues one ref per hop, the hop's upstream branch. A shorter chain queues one ref per branch name, that name's first character. |
| Orchestrator.SyncCoversEveryHop | index.js:92-97 | Corrected: on a chain without repeats, the start-up jobs number `len-1`, and job k merges exactly hop `(b[k], b[k+1])`. |
| Orchestrator.SyncRefsAgreeOnLongChains | index.js:95-96 | For chains of more than two branches, the refs queued as written are each pair's first element, one per hop. |
| Orchestrator.TwoBranchChainAsWritten | index.js:96 | For `["main", "develop"]`, the code as written queues refs `m` and `d`, and a push job is rejected. One hop per push would queue `main` and merge `main` into `develop`. |
| Orchestrator.SyncJobsBelong | index.js:92-99 | As written: every resync job belongs to a repository whose listing succeeded. On a chain of more than two branches it starts at the upstream branch of one of its hops. On a shorter chain it starts at the first character of one of its branch names. |
| Orchestrator.IntendedSyncJobsBelong | index.js:92-99 | Corrected: with one job per hop, every resync job starts at the upstream branch of a hop of its own repository's chain, whatever the chain's length. |
| Orchestrator.EnqueueAll | index.js:96 | Queueing the jobs in turn appends exactly that many entries after the untouched old ones, leaves the running job alone, and keeps the invariant. |
| Orchestrator.EnqueuedJobs | index.js:96 | Entry k of the appended ones is job k under its repository's label, with a ticket from the queue's next ticket on, so no earlier entry holds it. |
| Orchestrator.SyncAtStart | index.js:87-100 | Unless `SYNC_AT_START` is exactly `'true'`, nothing is queued and the promise fulfils. Otherwise the jobs of every repository whose listing succeeded are appended in order under their labels, with the refs picked as written. The promise then fulfils exactly when every listing succeeded. The running job is untouched and the invariant is kept. |
| Orchestrator.FinishJob | index.js:63-77 | After a failure, of the jobs pending before, exactly those of other repositories remain. Only a successful re-clone with `SYNC_AT_START` on adds the resync jobs. The running job is cleared, unless the failure went to a re-clone and either the re-clone failed or a resync listing failed. In that case the queue stalls. |
| Orchestrator.CancelAndResync | index.js:63-75 | After a successful re-clone, of the jobs pending before, exactly those of other repositories remain. The resync jobs follow them only when `SYNC_AT_START` is `'true'`. The resync fulfils exactly when it is off or every listing succeeded. The running job is untouched and the invariant is kept. |
| Orchestrator.CancelThenEnqueue | index.js:64-74 | Canceling a repository and then queueing the resync removes exactly the old entries with that label. |

## Left out

- The git engine is left out. Opening, fetching, pulling, merging and pushing (src/merge-branch-pair.js, src/clone-git-repository.js, src/set-git-config.js, src/get-fetch-opts.js) are one parameter: how merging a hop went. Reference resolution is included in it.
- Configuration file loading is left out: the existence check and YAML parsing. `path.resolve(projectRoot, local_path)` is a parameter of SyncConfig.ParseRepository, applied to every `local_path`.
- The semver sorter, the alphabetical sorter, JavaScript regular-expression matching and whether `new RegExp` accepts a pattern are parameters. Only "a sort returns a permutation" is assumed.
- Floating-point YAML numbers are left out. Numbers are integers.
- YAML mappings are modelled as entry lists in document order with distinct keys. JavaScript's ordering of integer-like keys is not modelled.
- SyncConfig.LiteralAccepts treats the rule name as literal text. A name containing regular-expression metacharacters would be a pattern in the source.
- Case-insensitive matching folds ASCII letters only.
- Orchestrator.NextHopAsWritten: strings are modelled as sequences of Unicode code points, while JavaScript's `.length`, `indexOf` and `substr` count UTF-16 code units. The `refsBranchPair.length !== 2` test of `mergeBranchPair` is modelled on code points, so a branch name holding a character outside the Basic Multilingual Plane (such as `a😀`, of JavaScript length 3) is split into a hop where the source throws. The same holds for the positions computed by BranchName.ParseBranchName and Text.
- Text.ReplaceFirst inserts the replacement literally. `$` patterns in `String.prototype.replace` replacements are not interpreted.
- External services are left out: the mail transport (src/send-mail.js), the Octokit request, `git-url-parse` (its owner and link target are parameters), the webhook server, the pid file, the environment-variable guard, and the ping timer (src/init-ping.js).
- Logging, and the `console.log` of the pull-request response, are left out. Logger.Write models one log call with the timestamp as a parameter.
- The 100 ms timer of the queue loop is replaced by discrete steps.
- WorkerQueue does not call the processor with the message. A processor run is abstracted to its promise fulfilling or rejecting (`Settle`).
- `stop()` is left out. It is documented but not defined in src/worker-queue.js.
- The `force` argument of the re-clone is left out. Cloning is not modelled, and src/clone-git-repository.js ignores it.
- Orchestrator.SyncAtStart queues repositories in configuration order. In the source, each repository's branch listing is asynchronous, so jobs of different repositories may interleave in another order.
- Start-up (`run`) is left out: the initial clones, the first resync and the registration of the push listeners. There, a failing clone or branch listing is only logged, and no push listener is ever registered. The same failure during the resync after a re-clone is modelled: it stalls the queue (Orchestrator.FinishJob).
- The webhook payload's `data` is never read, so it is left out.
- The cancellation of a job is absorbed by `queueMergeJob` with a log line. The model records only the queue's cancel event.
- Orchestrator.QueuedRef states only the unchanged case in its contract. The rewrite itself is stated by Orchestrator.HeadRefBecomesRemoteRef for refs of the form `refs/heads/<branch>`.

## Findings

| source | as written | input that shows it | evidently intended | confidence | as-written member | corrected member |
|---|---|---|---|---|---|---|
| src/merge-branch-pair.js:25-27 | On a conflict, `new MergeError(message, conflicts)` omits the third argument, which the constructor destructures as `{upstream, head}` (src/merge-error.js:7). The constructor therefore throws a TypeError. The same happens at line 61. | Any merge conflict, e.g. git reports conflicting index entries while merging a hop. The TypeError is not a `MergeError`, so index.js:67 takes the re-clone branch and no mail is sent. | Pass `{upstream, head}`, so a conflict reaches the mail branch as a `MergeError` naming both branches. | high, not executed | Orchestrator.HandlePushAsWritten | Orchestrator.HandlePush |
| index.js:56 | The push job destructures the first element of `getBranchPairs(chain, ref, 1)`. For a chain of at most two branches that element is a branch name, not a pair. | Chain `["main", "develop"]`, push to `main`: `mergeBranchPair` receives the string `main` and throws "invalid branchPairs value". The handler then cancels the repository's jobs and re-clones. | A two-branch chain has the one hop `("main", "develop")`. | medium, not executed | Orchestrator.NextHopAsWritten | Orchestrator.PushMergesOneHop |
| index.js:96 | The start-up resync takes `[head]` of each item of `getBranchPairs(chain)`. For a chain of at most two branches, each item is a branch name, so the first character of each name is queued. | Chain `["main", "develop"]`: jobs for refs `m` and `d` are queued instead of one job for `main`. | One job per hop, starting at the hop's upstream branch. | medium, not executed | Orchestrator.SyncRefsAsWritten | Orchestrator.IntendedSyncJobsBelong |
| src/send-conflict-mail.js:39 | Each listed file is `<li>${entry.path}<li>`: a second opening tag where the closing one belongs. | One conflict with path `a` renders `<h4>Files:</h4><ul><li>a<li></ul>`, which holds no `</li>`. | `<li>${entry.path}</li>` | high, not executed | ConflictMail.ConflictMail | ConflictMail.IntendedConflictMail |

=== FILE: branch_name.dfy ===
/** Ref-name stripping (src/parse-branch-name.js): the local branch name of a
    ref is what follows the first occurrence of the remote name (or, when the
    remote name does not occur, of `heads`) and one separator character. */
module BranchName {
  import opened Text

  /** `r` is the text of `ref` after the first occurrence of `marker` and one
      more character; empty when nothing follows. */
  ghost predicate FollowsFirst(ref: string, marker: string, r: string) {
    exists i ::
      && OccursAt(ref, marker, i)
      && (forall j :: 0 <= j < i ==> !OccursAt(ref, marker, j))
      && (i + |marker| < |ref| ==> ref == ref[..i + |marker| + 1] + r)
      && (i + |marker| >= |ref| ==> r == "")
  }

  /** `parseBranchName(refName, remoteName)`. */
  function ParseBranchName(refName: string, remoteName: string): (r: string)
    ensures IsSuffix(r, refName)
    ensures Contains(refName, remoteName) ==> FollowsFirst(refName, remoteName, r)
    ensures !Contains(refName, remoteName) && Contains(refName, "heads") ==>
      FollowsFirst(refName, "heads", r)
    ensures !Contains(refName, remoteName) && !Contains(refName, "heads") ==> r == refName
  {
    var marker := if Contains(refName, remoteName) then remoteName else "heads";
    var i := IndexOf(refName, marker);
    if i == -1 then refName
    else
      var r := SubstrFrom(refName, i + |marker| + 1);
      assert i + |marker| < |refName| ==> refName == refName[..i + |marker| + 1] + r;
      assert FollowsFirst(refName, marker, r);
      r
  }

  /** An occurrence inside a prefix is an occurrence in the whole string. */
  lemma OccursInPrefix(p: string, t: string, pat: string, j: int)
    requires 0 <= j && j + |pat| <= |p|
    ensures OccursAt(p + t, pat, j) <==> OccursAt(p, pat, j)
  {
    assert (p + t)[j..j + |pat|] == p[j..j + |pat|];
  }

  /** `<remote>/<branch>` parses to the branch, whatever the two names. */
  lemma RemotePrefixedRef(remote: string, branch: string)
    ensures ParseBranchName(remote + "/" + branch, remote) == branch
  {
    var s := remote + "/" + branch;
    assert OccursAt(s, remote, 0);
    assert IndexOf(s, remote) == 0;
    assert s[|remote| + 1..] == branch;
  }

  /** `refs/remotes/<remote>/<branch>` parses to the branch, provided the
      remote name does not already occur inside `refs/remotes/`. */
  lemma RemoteTrackingRef(remote: string, branch: string)
    requires IndexOf("refs/remotes/" + remote, remote) == 13
    ensures ParseBranchName("refs/remotes/" + remote + "/" + branch, remote) == branch
  {
    var p := "refs/remotes/" + remote;
    var s := p + ("/" + branch);
    assert s == "refs/remotes/" + remote + "/" + branch;
    forall j | 0 <= j < 13
      ensures !OccursAt(s, remote, j)
    {
      OccursInPrefix(p, "/" + branch, remote, j);
    }
    OccursInPrefix(p, "/" + branch, remote, 13);
    assert IndexOf(s, remote) == 13;
    assert s[13 + |remote| + 1..] == branch;
  }

  /** `refs/heads/<branch>` parses to the branch when the remote name does not
      occur in the ref. */
  lemma LocalHeadRef(remote: string, branch: string)
    requires !Contains("refs/heads/" + branch, remote)
    ensures ParseBranchName("refs/heads/" + branch, remote) == branch
  {
    var p := "refs/heads/";
    var s := p + branch;
    assert p[0] == 'r' && p[1] == 'e' && p[2] == 'f' && p[3] == 's' && p[4] == '/';
    forall j | 0 <= j < 5
      ensures !OccursAt(s, "heads", j)
    {
      OccursInPrefix(p, branch, "heads", j);
      assert p[j..j + 5][0] == p[j] != 'h';
    }
    OccursInPrefix(p, branch, "heads", 5);
    assert IndexOf(s, "heads") == 5;
    assert s[11..] == branch;
  }
}

=== FILE: branch_pairs.dfy ===
/** Hop windowing (src/get-branch-pairs.js): turns the ordered branch chain
    into adjacent `(upstream, head)` pairs, starting at a given branch and
    optionally capped at a number of pairs. */
module BranchPairs {
  import opened Outcomes
  import opened Seqs

  /** A hop: merge `upstream` (first) into `head` (second), then push `head`. */
  type Hop = (string, string)

  /** What `getBranchPairs` hands back: the raw chain when it has at most two
      branches, the list of pairs, or the "Branch not found" error. */
  datatype PairsResult =
    | Degenerate(branches: seq<string>)
    | Pairs(pairs: seq<Hop>)
    | NotFound(start: string)

  /** The chain position `j` has a successor, so `(b[j], b[j + 1])` exists;
      otherwise one of the two array reads is `undefined` and the pair is
      dropped. */
  predicate HasHop(b: seq<string>, j: int) {
    0 <= j && j + 1 < |b|
  }

  /** `_.range(i, end)` for `i <= end` (indices i, i+1, ..., end-1), mapped to
      pairs, with the pairs holding an `undefined` dropped. */
  function AscendingPairs(b: seq<string>, i: int, end: int): seq<Hop>
    decreases end - i
  {
    if i >= end then []
    else (if HasHop(b, i) then [(b[i], b[i + 1])] else []) + AscendingPairs(b, i + 1, end)
  }

  /** `_.range(i, end)` for `i > end`: lodash then counts down
      (indices i, i-1, ..., end+1); mapped and filtered as above. */
  function DescendingPairs(b: seq<string>, i: int, end: int): seq<Hop>
    decreases i - end
  {
    if i <= end then []
    else (if HasHop(b, i) then [(b[i], b[i + 1])] else []) + DescendingPairs(b, i - 1, end)
  }

  /** `getBranchPairs(allBranches, startingBranch = allBranches[0], maxPairs = -1)`;
      an omitted start branch is `None`. */
  function GetBranchPairs(b: seq<string>, start: Option<string>, maxPairs: int): (r: PairsResult)
    ensures r.Degenerate? <==> |b| <= 2
    ensures r.Degenerate? ==> r.branches == b
    ensures r.NotFound? <==> |b| > 2 && start.GetOr(b[0]) !in b
    ensures r.NotFound? ==> r.start == start.GetOr(b[0])
    ensures r.Pairs? ==> forall k :: 0 <= k < |r.pairs| ==> r.pairs[k].0 in b && r.pairs[k].1 in b
  {
    if |b| <= 2 then Degenerate(b)
    else
      var s := start.GetOr(b[0]);
      var i := FirstIndex(b, s);
      if i == -1 then NotFound(s)
      else
        var end := if maxPairs == -1 then |b| - 1 else i + maxPairs;
        Pairs(Window(b, i, end))
  }

  /** `_.range(i, end)` mapped to pairs and filtered, in whichever direction
      lodash counts. */
  function Window(b: seq<string>, i: int, end: int): (ps: seq<Hop>)
    requires 0 <= i < |b|
    ensures forall k :: 0 <= k < |ps| ==> ps[k].0 in b && ps[k].1 in b
  {
    AscendingShape(b, i, end);
    assert i == |b| - 1 ==> DescendingPairs(b, i, end) == DescendingPairs(b, i - 1, end);
    DescendingShape(b, Min(i, |b| - 2), end);
    if i <= end then AscendingPairs(b, i, end) else DescendingPairs(b, i, end)
  }

  /** Which way `Window` counts. */
  lemma WindowDirection(b: seq<string>, i: int, end: int)
    requires 0 <= i < |b|
    ensures i <= end ==> Window(b, i, end) == AscendingPairs(b, i, end)
    ensures end < i ==> Window(b, i, end) == DescendingPairs(b, i, end)
  {
  }

  function Max(x: int, y: int): int { if x < y then y else x }
  function Min(x: int, y: int): int { if x < y then x else y }

  /** The `n` consecutive hops of `b` from position `lo`, in chain order. */
  function Hops(b: seq<string>, lo: int, n: nat): (r: seq<Hop>)
    requires n == 0 || (0 <= lo && lo + n < |b|)
    ensures |r| == n
  {
    seq(n, k requires 0 <= k < n => (b[lo + k], b[lo + k + 1]))
  }

  /** The `n` consecutive hops of `b` counting down from position `hi`. */
  function HopsDown(b: seq<string>, hi: int, n: nat): (r: seq<Hop>)
    requires n == 0 || (n - 1 <= hi && hi + 1 < |b|)
    ensures |r| == n
  {
    seq(n, k requires 0 <= k < n => (b[hi - k], b[hi - k + 1]))
  }

  /** Putting the hop at `lo` in front of the hops from `lo + 1`. */
  lemma HopsCons(b: seq<string>, lo: int, n: nat)
    requires 0 <= lo && lo + 1 + n < |b|
    ensures [(b[lo], b[lo + 1])] + Hops(b, lo + 1, n) == Hops(b, lo, n + 1)
  {
    var r := [(b[lo], b[lo + 1])] + Hops(b, lo + 1, n);
    forall k | 0 <= k < n + 1
      ensures r[k] == Hops(b, lo, n + 1)[k]
    {
      if k > 0 {
        assert r[k] == Hops(b, lo + 1, n)[k - 1];
      }
    }
  }

  /** Putting the hop at `hi` in front of the hops counting down from `hi - 1`. */
  lemma HopsDownCons(b: seq<string>, hi: int, n: nat)
    requires n <= hi && hi + 1 < |b|
    ensures [(b[hi], b[hi + 1])] + HopsDown(b, hi - 1, n) == HopsDown(b, hi, n + 1)
  {
    var r := [(b[hi], b[hi + 1])] + HopsDown(b, hi - 1, n);
    forall k | 0 <= k < n + 1
      ensures r[k] == HopsDown(b, hi, n + 1)[k]
    {
      if k > 0 {
        assert r[k] == HopsDown(b, hi - 1, n)[k - 1];
      }
    }
  }

  /** An ascending window yields the consecutive hops from `max(i, 0)` up to
      the last chain position with a successor, cut at `end`. */
  lemma {:induction false} AscendingShape(b: seq<string>, i: int, end: int)
    ensures AscendingPairs(b, i, end) == Hops(b, Max(i, 0), Max(0, Min(end, |b| - 1) - Max(i, 0)))
    decreases end - i
  {
    var hi := Min(end, |b| - 1);
    if i >= end {
      assert hi - Max(i, 0) <= 0;
    } else {
      AscendingShape(b, i + 1, end);
      var rest := AscendingPairs(b, i + 1, end);
      if HasHop(b, i) {
        assert AscendingPairs(b, i, end) == [(b[i], b[i + 1])] + rest;
        assert Max(i, 0) == i && Max(i + 1, 0) == i + 1;
        HopsCons(b, i, hi - (i + 1));
      } else if i < 0 {
        // Before the chain: nothing here, and the window still starts at 0.
        assert AscendingPairs(b, i, end) == rest;
        assert Max(i, 0) == 0 == Max(i + 1, 0);
      } else {
        // Past the last hop: both windows are empty.
        assert AscendingPairs(b, i, end) == rest;
        assert hi - Max(i, 0) <= 0 && hi - Max(i + 1, 0) <= 0;
      }
    }
  }

  /** A descending window from a position `i` that has a successor (or from
      -1) yields the consecutive hops counting down from `i` to
      `max(end + 1, 0)`. */
  lemma {:induction false} DescendingShape(b: seq<string>, i: int, end: int)
    requires -1 <= i <= |b| - 2
    ensures DescendingPairs(b, i, end) == HopsDown(b, i, DownSpan(i, end))
    decreases i - end
  {
    if i < 0 {
      DescendingBelowZero(b, i, end);
    } else if end < i {
      DescendingShape(b, i - 1, end);
      assert DescendingPairs(b, i, end) == [(b[i], b[i + 1])] + DescendingPairs(b, i - 1, end);
      HopsDownCons(b, i, DownSpan(i - 1, end));
    }
  }

  lemma {:induction false} DescendingBelowZero(b: seq<string>, i: int, end: int)
    requires i < 0
    ensures DescendingPairs(b, i, end) == []
    decreases i - end
  {
    if end < i {
      DescendingBelowZero(b, i - 1, end);
    }
  }

  /** With more than two branches, a start branch that is present and
      `maxPairs` either -1 (no cap) or a cap `k >= 0`, the result is the
      consecutive hops from the first occurrence of the start branch: all of
      them when uncapped, the first `min(k, |b| - 1 - start)` otherwise. */
  lemma HopWindow(b: seq<string>, start: string, maxPairs: int)
    requires |b| > 2 && start in b
    requires maxPairs >= -1
    ensures var i := FirstIndex(b, start);
      GetBranchPairs(b, Some(start), maxPairs) == Pairs(Hops(b, i, Span(|b|, i, maxPairs)))
  {
    var i := FirstIndex(b, start);
    var end := if maxPairs == -1 then |b| - 1 else i + maxPairs;
    var n := Span(|b|, i, maxPairs);
    assert GetBranchPairs(b, Some(start), maxPairs) == Pairs(Window(b, i, end)) by {
      UnfoldPairs(b, start, maxPairs, i, end);
    }
    assert Window(b, i, end) == AscendingPairs(b, i, end) by {
      WindowDirection(b, i, end);
    }
    assert AscendingPairs(b, i, end) == Hops(b, i, n) by {
      AscendingShape(b, i, end);
      assert Max(i, 0) == i && Max(0, Min(end, |b| - 1) - i) == n;
    }
    assert GetBranchPairs(b, Some(start), maxPairs) == Pairs(Hops(b, i, n));
  }

  /** How many hops an uncapped (-1) or capped (`maxPairs >= 0`) window
      from position `i` of a chain of `len` branches holds. */
  function Span(len: int, i: int, maxPairs: int): int {
    if maxPairs == -1 then len - 1 - i else Min(maxPairs, len - 1 - i)
  }

  /** The branch taken by `GetBranchPairs` for a present start branch. */
  lemma UnfoldPairs(b: seq<string>, start: string, maxPairs: int, i: int, end: int)
    requires |b| > 2 && start in b
    requires i == FirstIndex(b, start) && end == if maxPairs == -1 then |b| - 1 else i + maxPairs
    ensures GetBranchPairs(b, Some(start), maxPairs) == Pairs(Window(b, i, end))
  {
    assert Some(start).GetOr(b[0]) == start;
    assert FirstIndex(b, start) != -1;
  }

  /** A capped window is a prefix of the uncapped one. */
  lemma CappedIsPrefix(b: seq<string>, start: string, k: nat)
    requires |b| > 2 && start in b
    ensures var capped := GetBranchPairs(b, Some(start), k);
      var all := GetBranchPairs(b, Some(start), -1);
      capped.Pairs? && all.Pairs? && capped.pairs <= all.pairs
  {
    var i := FirstIndex(b, start);
    HopWindow(b, start, k);
    HopWindow(b, start, -1);
    HopsPrefix(b, i, Min(k, |b| - 1 - i), |b| - 1 - i);
  }

  /** Fewer hops from the same position are a prefix of more. */
  lemma HopsPrefix(b: seq<string>, lo: int, m: nat, n: nat)
    requires m <= n && (n == 0 || (0 <= lo && lo + n < |b|))
    ensures Hops(b, lo, m) <= Hops(b, lo, n)
  {
    assert Hops(b, lo, m) == Hops(b, lo, n)[..m];
  }

  /** Starting at the last branch of a chain without repeats gives no pairs,
      not an error, whatever the cap. */
  lemma LastBranchGivesNoPairs(b: seq<string>, maxPairs: int)
    requires |b| > 2 && NoDuplicates(b)
    requires maxPairs >= -1
    ensures GetBranchPairs(b, Some(b[|b| - 1]), maxPairs) == Pairs([])
  {
    assert b[|b| - 1] !in b[..|b| - 1];
    assert FirstIndex(b, b[|b| - 1]) == |b| - 1;
    HopWindow(b, b[|b| - 1], maxPairs);
  }

  /** An omitted start branch means the first branch. */
  lemma DefaultStartIsFirstBranch(b: seq<string>, maxPairs: int)
    requires |b| > 0
    ensures GetBranchPairs(b, None, maxPairs) == GetBranchPairs(b, Some(b[0]), maxPairs)
    ensures |b| > 2 && maxPairs == -1 ==>
      GetBranchPairs(b, None, maxPairs) == Pairs(Hops(b, 0, |b| - 1))
  {
    if |b| > 2 && maxPairs == -1 {
      HopWindow(b, b[0], -1);
    }
  }

  /** A cap below -1 makes lodash's range count down, so the hops run
      backwards from the start branch towards the head of the chain. */
  lemma NegativeCapWalksBackwards(b: seq<string>, start: string, maxPairs: int)
    requires |b| > 2 && start in b
    requires maxPairs < -1
    ensures var hi := Min(FirstIndex(b, start), |b| - 2);
      GetBranchPairs(b, Some(start), maxPairs)
        == Pairs(HopsDown(b, hi, DownSpan(hi, FirstIndex(b, start) + maxPairs)))
  {
    var i := FirstIndex(b, start);
    var end := i + maxPairs;
    var hi := Min(i, |b| - 2);
    var n := DownSpan(hi, end);
    assert GetBranchPairs(b, Some(start), maxPairs) == Pairs(Window(b, i, end)) by {
      UnfoldPairs(b, start, maxPairs, i, end);
    }
    assert Window(b, i, end) == DescendingPairs(b, i, end) by {
      WindowDirection(b, i, end);
    }
    assert DescendingPairs(b, i, end) == HopsDown(b, hi, n) by {
      assert DescendingPairs(b, i, end) == DescendingPairs(b, hi, end);
      DescendingShape(b, hi, end);
    }
    assert GetBranchPairs(b, Some(start), maxPairs) == Pairs(HopsDown(b, hi, n));
  }

  /** How many hops a descending window from position `hi` down to (but not
      including) `end` holds. */
  function DownSpan(hi: int, end: int): nat {
    Max(0, hi - Max(end + 1, 0) + 1)
  }
}

=== FILE: branches.dfy ===
/** Chain resolution (src/get-branches.js, src/retrieve-git-branches.js):
    keep the remote refs of the chosen remote, then per branch rule filter and
    sort them, concatenate the blocks in rule order and drop repeats, keeping
    first occurrences. The repository's ref list is an input. */
module Branches {
  import opened Outcomes
  import opened Seqs
  import opened Text

  /** One reference of the repository, as nodegit lists it. */
  datatype GitRef = GitRef(name: string, isRemote: bool)

  /** The ref filter of `retrieveGitBranches`: remote refs whose full name
      contains the remote name anywhere. */
  predicate Selected(ref: GitRef, remote: string) {
    ref.isRemote && Contains(ref.name, remote)
  }

  /** `retrieveGitBranches(repoPath, remote = 'origin')` after the refs have
      been listed (src/retrieve-git-branches.js:11, 14-15). */
  function RemoteBranchNames(refs: seq<GitRef>, remote: Option<string>): (r: seq<string>)
    ensures forall x :: x in r <==>
      exists i :: 0 <= i < |refs| && Selected(refs[i], remote.GetOr("origin")) && refs[i].name == x
  {
    if |refs| == 0 then []
    else
      var rest := RemoteBranchNames(refs[1..], remote);
      (if Selected(refs[0], remote.GetOr("origin")) then [refs[0].name] else []) + rest
  }

  /** The selection keeps the order of the ref list: it distributes over
      concatenation. */
  lemma {:induction false} RemoteBranchNamesConcat(a: seq<GitRef>, b: seq<GitRef>, remote: Option<string>)
    ensures RemoteBranchNames(a + b, remote) == RemoteBranchNames(a, remote) + RemoteBranchNames(b, remote)
  {
    if |a| == 0 {
      assert a + b == b;
    } else {
      assert (a + b)[1..] == a[1..] + b;
      RemoteBranchNamesConcat(a[1..], b, remote);
    }
  }

  /** A normalised branch rule as `filterBranchesByConfig` sees it: an
      optional `nameFilterFn` and an optional `sortFn`. */
  datatype Rule = Rule(nameFilter: Option<string -> bool>, sort: Option<seq<string> -> seq<string>>)

  predicate Accepts(rule: Rule, branch: string) {
    rule.nameFilter.Some? && rule.nameFilter.value(branch)
  }

  /** The sort function only reorders its input. */
  ghost predicate SortPermutes(rule: Rule) {
    rule.sort.Some? ==> forall xs :: multiset(rule.sort.value(xs)) == multiset(xs)
  }

  ghost predicate AllSortsPermute(rules: seq<Rule>) {
    forall k :: 0 <= k < |rules| ==> SortPermutes(rules[k])
  }

  /** `filterBranchesByConfig(branches, branchConfig)`: `Array.prototype.filter`
      throws a TypeError when `nameFilterFn` is missing. */
  function FilterByRule(branches: seq<string>, rule: Rule): (r: Result<seq<string>, JsError>)
    ensures r.Ok? <==> rule.nameFilter.Some?
    ensures r.Ok? && rule.sort.None? ==> r.value == Filter(branches, rule.nameFilter.value)
    ensures r.Ok? && SortPermutes(rule) ==>
      multiset(r.value) == multiset(Filter(branches, rule.nameFilter.value))
    ensures r.Ok? && SortPermutes(rule) ==>
      forall x :: x in r.value <==> x in branches && Accepts(rule, x)
  {
    match rule.nameFilter
    case None => Err(TypeError("undefined is not a function"))
    case Some(f) =>
      var matched := Filter(branches, f);
      match rule.sort
      case None => Ok(matched)
      case Some(sortFn) =>
        var sorted := sortFn(matched);
        assert SortPermutes(rule) ==> forall x :: x in sorted <==> x in multiset(matched);
        Ok(sorted)
  }

  /** `_.flatMap(rules, filterBranchesByConfig.bind(null, branches))`: the
      blocks of the rules concatenated in rule order. */
  function Collect(branches: seq<string>, rules: seq<Rule>): (r: Result<seq<string>, JsError>)
    ensures r.Ok? <==> forall k :: 0 <= k < |rules| ==> rules[k].nameFilter.Some?
  {
    if |rules| == 0 then Ok([])
    else
      match FilterByRule(branches, rules[0])
      case Err(e) => Err(e)
      case Ok(block) =>
        match Collect(branches, rules[1..])
        case Err(e) => Err(e)
        case Ok(rest) => Ok(block + rest)
  }

  /** `getBranches(syncConfig)`: `retrieveGitBranches` is called without a
      remote name, so only `origin` refs are ever considered. */
  function GetBranches(refs: seq<GitRef>, rules: seq<Rule>): (r: Result<seq<string>, JsError>)
    ensures r.Ok? <==> forall k :: 0 <= k < |rules| ==> rules[k].nameFilter.Some?
    ensures r.Ok? ==> NoDuplicates(r.value)
  {
    match Collect(RemoteBranchNames(refs, None), rules)
    case Err(e) => Err(e)
    case Ok(all) => Ok(Uniq(all))
  }

  /** The index of the first rule accepting `x`, or -1. */
  function FirstAcceptingRule(rules: seq<Rule>, x: string): (k: int)
    ensures -1 <= k < |rules|
    ensures k == -1 <==> forall j :: 0 <= j < |rules| ==> !Accepts(rules[j], x)
    ensures 0 <= k ==> Accepts(rules[k], x) && forall j :: 0 <= j < k ==> !Accepts(rules[j], x)
  {
    if |rules| == 0 then -1
    else if Accepts(rules[0], x) then 0
    else
      var k := FirstAcceptingRule(rules[1..], x);
      if k == -1 then -1 else k + 1
  }

  /** The block a rule contributes (rules without a filter contribute
      nothing, as `Collect` fails on them). */
  function Block(branches: seq<string>, rule: Rule): seq<string> {
    match FilterByRule(branches, rule)
    case Ok(block) => block
    case Err(_) => []
  }

  /** A branch is in the concatenation of the blocks exactly when some rule
      accepts it. */
  lemma {:induction false} CollectMembers(branches: seq<string>, rules: seq<Rule>, x: string)
    requires AllSortsPermute(rules)
    requires Collect(branches, rules).Ok?
    ensures x in Collect(branches, rules).value <==> x in branches && FirstAcceptingRule(rules, x) >= 0
    decreases |rules|
  {
    if |rules| > 0 {
      assert SortPermutes(rules[0]);
      assert AllSortsPermute(rules[1..]);
      CollectMembers(branches, rules[1..], x);
      var k := FirstAcceptingRule(rules, x);
      if k > 0 {
        assert FirstAcceptingRule(rules[1..], x) == k - 1;
      }
    }
  }

  /** A branch whose first accepting rule comes earlier appears earlier. */
  lemma {:induction false} CollectOrderAcrossRules(branches: seq<string>, rules: seq<Rule>, x: string, y: string)
    requires AllSortsPermute(rules)
    requires Collect(branches, rules).Ok?
    requires x in branches && y in branches
    requires 0 <= FirstAcceptingRule(rules, x) < FirstAcceptingRule(rules, y)
    ensures FirstIndex(Collect(branches, rules).value, x) < FirstIndex(Collect(branches, rules).value, y)
    decreases |rules|
  {
    assert SortPermutes(rules[0]);
    assert AllSortsPermute(rules[1..]);
    var block := FilterByRule(branches, rules[0]).value;
    var rest := Collect(branches, rules[1..]).value;
    var kx := FirstAcceptingRule(rules, x);
    var ky := FirstAcceptingRule(rules, y);
    assert FirstAcceptingRule(rules[1..], y) == ky - 1;
    CollectMembers(branches, rules[1..], y);
    FirstIndexConcat(block, rest, x);
    FirstIndexConcat(block, rest, y);
    if kx > 0 {
      assert FirstAcceptingRule(rules[1..], x) == kx - 1;
      CollectMembers(branches, rules[1..], x);
      CollectOrderAcrossRules(branches, rules[1..], x, y);
    }
  }

  /** Two branches with the same first accepting rule keep that rule's sort
      order. */
  lemma {:induction false} CollectOrderWithinRule(branches: seq<string>, rules: seq<Rule>, x: string, y: string)
    requires AllSortsPermute(rules)
    requires Collect(branches, rules).Ok?
    requires x in branches && y in branches
    requires 0 <= FirstAcceptingRule(rules, x) == FirstAcceptingRule(rules, y)
    ensures var k := FirstAcceptingRule(rules, x);
      var all := Collect(branches, rules).value;
      FirstIndex(all, x) < FirstIndex(all, y) <==>
        FirstIndex(Block(branches, rules[k]), x) < FirstIndex(Block(branches, rules[k]), y)
    decreases |rules|
  {
    assert SortPermutes(rules[0]);
    assert AllSortsPermute(rules[1..]);
    var block := FilterByRule(branches, rules[0]).value;
    var rest := Collect(branches, rules[1..]).value;
    var k := FirstAcceptingRule(rules, x);
    FirstIndexConcat(block, rest, x);
    FirstIndexConcat(block, rest, y);
    if k > 0 {
      assert FirstAcceptingRule(rules[1..], x) == k - 1;
      assert FirstAcceptingRule(rules[1..], y) == k - 1;
      assert rules[1..][k - 1] == rules[k];
      CollectMembers(branches, rules[1..], x);
      CollectMembers(branches, rules[1..], y);
      CollectOrderWithinRule(branches, rules[1..], x, y);
    }
  }

  /** The resolved chain: no repeats; a branch is in it exactly when it is an
      `origin` remote branch that some rule accepts; branches are ordered by
      their first accepting rule and, within one rule, by that rule's sort. */
  lemma GetBranchesChain(refs: seq<GitRef>, rules: seq<Rule>, x: string, y: string)
    requires AllSortsPermute(rules)
    requires GetBranches(refs, rules).Ok?
    ensures var chain := GetBranches(refs, rules).value;
      x in chain <==> x in RemoteBranchNames(refs, None) && FirstAcceptingRule(rules, x) >= 0
    ensures var chain := GetBranches(refs, rules).value;
      var names := RemoteBranchNames(refs, None);
      var kx := FirstAcceptingRule(rules, x);
      var ky := FirstAcceptingRule(rules, y);
      x in chain && y in chain && kx < ky ==> FirstIndex(chain, x) < FirstIndex(chain, y)
    ensures var chain := GetBranches(refs, rules).value;
      var names := RemoteBranchNames(refs, None);
      var kx := FirstAcceptingRule(rules, x);
      var ky := FirstAcceptingRule(rules, y);
      x in chain && y in chain && kx == ky ==>
        (FirstIndex(chain, x) < FirstIndex(chain, y) <==>
         FirstIndex(Block(names, rules[kx]), x) < FirstIndex(Block(names, rules[kx]), y))
  {
    var names := RemoteBranchNames(refs, None);
    var all := Collect(names, rules).value;
    CollectMembers(names, rules, x);
    CollectMembers(names, rules, y);
    if x in all && y in all {
      UniqKeepsOrder(all, x, y);
      var kx := FirstAcceptingRule(rules, x);
      var ky := FirstAcceptingRule(rules, y);
      if kx < ky {
        CollectOrderAcrossRules(names, rules, x, y);
      } else if kx == ky {
        CollectOrderWithinRule(names, rules, x, y);
      }
    }
  }
}

=== FILE: conflict_mail.dfy ===
/** The conflict pull request and notification mail
    (src/send-conflict-mail.js). The repository owner and link target that
    `git-url-parse` derives from the remote URL, and the pull-request URL
    returned by the hosting service (absent when the request failed), are
    parameters. */
module ConflictMail {
  import opened Outcomes
  import opened Text
  import opened Seqs
  import opened MergeErrors

  /** A possibly undefined string inside a template literal. */
  function Show(v: Option<string>): string {
    v.GetOr("undefined")
  }

  predicate Truthy(v: Option<string>) {
    v.Some? && v.value != ""
  }

  function Quoted(s: string): string {
    "\"" + s + "\""
  }

  datatype PrOptions = PrOptions(owner: string, repo: Option<string>, head: Option<string>, base: Option<string>, title: string, body: string)

  const TitlePrefix := "[git-synced]: confict for "

  /** The `prOpts` of `createNewPr`: a pull request from the upstream branch
      into the head branch of the chain hop that failed. */
  function PrOpts(owner: string, repoName: Option<string>, err: MergeError): (o: PrOptions)
    ensures o.owner == owner && o.repo == repoName
    ensures o.head == err.upstream && o.base == err.head
    ensures o.title == TitlePrefix + Quoted(Show(err.upstream)) + " -> " + Quoted(Show(err.head))
  {
    var up := Show(err.upstream);
    var head := Show(err.head);
    PrOptions(owner, repoName, err.upstream, err.head,
      TitlePrefix + Quoted(up) + " -> " + Quoted(head),
      "This PR was created because I wasn't able to automatically merge " + Quoted(up) + " into " + Quoted(head)
        + ".\n  Please fix the conflicts and manually merge branch " + Quoted(up) + ".")
  }

  /** The two branch names can be read back from the title, provided
      neither holds a double quote. */
  lemma TitleNamesTheHop(owner: string, repoName: Option<string>, err: MergeError)
    requires '"' !in Show(err.upstream) && '"' !in Show(err.head)
    ensures Split(PrOpts(owner, repoName, err).title, '"') == [TitlePrefix, Show(err.upstream), " -> ", Show(err.head), ""]
  {
    TitleSplits(Show(err.upstream), Show(err.head));
  }

  /** Splitting a title built from two quote-free names at its quotes. */
  lemma TitleSplits(up: string, head: string)
    requires '"' !in up && '"' !in head
    ensures Split(TitlePrefix + Quoted(up) + " -> " + Quoted(head), '"') == [TitlePrefix, up, " -> ", head, ""]
  {
    var q := '"';
    var t4 := head + [q] + "";
    var t3 := " -> " + [q] + t4;
    var t2 := up + [q] + t3;
    assert TitlePrefix + Quoted(up) + " -> " + Quoted(head) == TitlePrefix + [q] + t2;
    SplitNoSeparator("", q);
    assert Split(t4, q) == [head, ""] by {
      SplitAfterSeparator(head, "", q);
    }
    assert Split(t3, q) == [" -> ", head, ""] by {
      SplitAfterSeparator(" -> ", t4, q);
    }
    assert Split(t2, q) == [up, " -> ", head, ""] by {
      SplitAfterSeparator(up, t3, q);
    }
    SplitAfterSeparator(TitlePrefix, t2, q);
  }

  function Path(c: IndexEntry): string {
    c.path
  }

  /** The conflicts the mail lists: one per path, the first with that path,
      in order. */
  function ListedConflicts(err: MergeError): (cs: seq<IndexEntry>)
    ensures NoDuplicates(Keys(cs, Path))
    ensures forall c :: c in cs ==> c in err.conflicts
    ensures forall p :: p in Keys(err.conflicts, Path) <==> p in Keys(cs, Path)
  {
    UniqBy(err.conflicts, Path)
  }

  /** Listed conflicts keep their order in the error, and each is the first
      conflict with its path. */
  lemma ListedInFirstOccurrenceOrder(err: MergeError, x: IndexEntry, y: IndexEntry)
    requires x in ListedConflicts(err) && y in ListedConflicts(err)
    ensures FirstIndex(ListedConflicts(err), x) < FirstIndex(ListedConflicts(err), y)
        <==> FirstIndex(err.conflicts, x) < FirstIndex(err.conflicts, y)
    ensures forall j :: 0 <= j < FirstIndex(err.conflicts, x) ==> err.conflicts[j].path != x.path
  {
    UniqByKeepsOrder(err.conflicts, Path, x, y);
    UniqByKeepsFirst(err.conflicts, Path, x);
  }

  /** One entry of the files list, as intended: opened and closed. */
  function ListItem(path: string): string {
    "<li>" + path + "</li>"
  }

  /** The entry as written at src/send-conflict-mail.js line 39: a second
      opening tag where the closing one belongs. */
  function ListItemAsWritten(path: string): string {
    "<li>" + path + "<li>"
  }

  function Concat(parts: seq<string>): string {
    if |parts| == 0 then "" else parts[0] + Concat(parts[1..])
  }

  function Items(cs: seq<IndexEntry>, item: string -> string): seq<string> {
    seq(|cs|, i requires 0 <= i < |cs| => item(cs[i].path))
  }

  /** The files section, with each path rendered by `item`. */
  function FilesList(cs: seq<IndexEntry>, item: string -> string): string {
    "<h4>Files:</h4><ul>" + Concat(Items(cs, item)) + "</ul>"
  }

  function FilesHtml(cs: seq<IndexEntry>): string {
    FilesList(cs, ListItem)
  }

  function FilesHtmlAsWritten(cs: seq<IndexEntry>): string {
    FilesList(cs, ListItemAsWritten)
  }

  lemma {:induction false} ConcatHasPart(parts: seq<string>, i: int)
    requires 0 <= i < |parts|
    ensures Contains(Concat(parts), parts[i])
  {
    var s := Concat(parts);
    if i == 0 {
      assert OccursAt(s, parts[0], 0) by {
        assert s[..|parts[0]|] == parts[0];
      }
    } else {
      ConcatHasPart(parts[1..], i - 1);
      var rest := Concat(parts[1..]);
      var k :| 0 <= k <= |rest| && OccursAt(rest, parts[i], k);
      assert s == parts[0] + rest;
      assert s[|parts[0]| + k..|parts[0]| + k + |parts[i]|] == rest[k..k + |parts[i]|];
      assert OccursAt(s, parts[i], |parts[0]| + k);
    }
  }

  lemma ContainsWithin(a: string, s: string, b: string, pat: string)
    requires Contains(s, pat)
    ensures Contains(a + s + b, pat)
  {
    var k :| 0 <= k <= |s| && OccursAt(s, pat, k);
    var t := a + s + b;
    assert t[|a| + k..|a| + k + |pat|] == s[k..k + |pat|];
    assert OccursAt(t, pat, |a| + k);
  }

  lemma ContainsPiece(a: string, s: string, b: string)
    ensures Contains(a + s + b, s)
  {
    assert OccursAt(s, s, 0);
    ContainsWithin(a, s, b, s);
  }

  /** The files section holds the rendered item of every listed conflict. */
  lemma FilesListEveryPath(cs: seq<IndexEntry>, item: string -> string, i: int)
    requires 0 <= i < |cs|
    ensures Contains(FilesList(cs, item), item(cs[i].path))
  {
    ConcatHasPart(Items(cs, item), i);
    ContainsWithin("<h4>Files:</h4><ul>", Concat(Items(cs, item)), "</ul>", item(cs[i].path));
  }

  /** The intended list holds, for every listed conflict, a closed list item
      with its path. */
  lemma FilesListEveryPathClosed(cs: seq<IndexEntry>, i: int)
    requires 0 <= i < |cs|
    ensures Contains(FilesHtml(cs), "<li>" + cs[i].path + "</li>")
  {
    FilesListEveryPath(cs, ListItem, i);
  }

  /** As written, a one-conflict list never closes its item: the markup has
      no closing tag at all. */
  lemma FilesListAsWrittenNeverCloses()
    ensures FilesHtmlAsWritten([IndexEntry("0a1b", "a")]) == "<h4>Files:</h4><ul><li>a<li></ul>"
    ensures !Contains(FilesHtmlAsWritten([IndexEntry("0a1b", "a")]), "</li>")
  {
    var s := FilesHtmlAsWritten([IndexEntry("0a1b", "a")]);
    var items := Items([IndexEntry("0a1b", "a")], ListItemAsWritten);
    assert |items| == 1 && items[0] == "<li>a<li>";
    assert items == ["<li>a<li>"];
    assert Concat(["<li>a<li>"]) == "<li>a<li>" + Concat([]);
    forall k | 0 <= k <= |s|
      ensures !OccursAt(s, "</li>", k)
    {
      if k + 5 <= |s| {
        assert s[k..k + 5][2] == s[k + 2];
        assert s[k + 2] != 'l' || s[k + 1] != '/';
      }
    }
  }

  /** A link to the repository when the parsed link target is non-empty,
      otherwise its quoted name. */
  function RepoHtml(repoName: Option<string>, href: string): (h: string)
    ensures Contains(h, Quoted(Show(repoName)))
    ensures href != "" <==> h != Quoted(Show(repoName))
    ensures href != "" ==>
      var open := "<a href=" + Quoted(href) + ">";
      && |h| >= |open| + 4
      && h[..|open|] == open
      && h[|h| - 4..] == "</a>"
  {
    var name := Quoted(Show(repoName));
    if href != "" then
      var open := "<a href=" + Quoted(href) + ">";
      ContainsPiece(open, name, "</a>");
      var h := open + name + "</a>";
      assert h[..|open|] == open;
      assert h[|h| - 4..] == "</a>";
      h
    else
      ContainsPiece("", name, "");
      assert "" + name + "" == name;
      name
  }

  /** The three variable parts of the mail body. */
  datatype MailParts = MailParts(description: string, prLink: string, files: string)

  /** `generateMailBody`, part by part, with each listed path rendered by
      `item`. */
  function Parts(repoName: Option<string>, href: string, ref: Option<string>, err: MergeError, prUrl: Option<string>,
                 item: string -> string): (p: MailParts)
    ensures Truthy(err.head) && Truthy(err.upstream) ==>
      p.description == Quoted(err.upstream.value) + " into " + Quoted(err.head.value) + " in repository " + RepoHtml(repoName, href)
    ensures !(Truthy(err.head) && Truthy(err.upstream)) ==>
      p.description == Quoted(Show(ref)) + " in repository " + RepoHtml(repoName, href)
    ensures p.prLink != "" <==> Truthy(prUrl)
    ensures Truthy(prUrl) ==> Contains(p.prLink, "<a href=" + Quoted(prUrl.value) + ">")
    ensures p.files != "" <==> |ListedConflicts(err)| > 0
    ensures p.files != "" ==> p.files == FilesList(ListedConflicts(err), item)
  {
    var repo := RepoHtml(repoName, href);
    var description :=
      if Truthy(err.head) && Truthy(err.upstream) then
        Quoted(err.upstream.value) + " into " + Quoted(err.head.value) + " in repository " + repo
      else Quoted(Show(ref)) + " in repository " + repo;
    var listed := ListedConflicts(err);
    MailParts(description, PrLink(prUrl), if |listed| > 0 then FilesList(listed, item) else "")
  }

  /** The paragraph pointing at the pull request, when there is one. */
  function PrLink(prUrl: Option<string>): (h: string)
    ensures h != "" <==> Truthy(prUrl)
    ensures Truthy(prUrl) ==> Contains(h, "<a href=" + Quoted(prUrl.value) + ">")
  {
    if Truthy(prUrl) then
      var a := "<br/> <p>See the conflicts: ";
      var link := "<a href=" + Quoted(prUrl.value) + ">";
      ContainsPiece(a, link, prUrl.value + "</a></p>");
      a + link + (prUrl.value + "</a></p>")
    else ""
  }

  /** The body text around the parts. */
  function Body(p: MailParts): string {
    "\n    <p>A merge conflict occured while trying to merge " + p.description + ".</p>\n\n    "
      + p.prLink + "\n\n    " + p.files + "\n  "
  }

  lemma BodyShowsFiles(p: MailParts, pat: string)
    requires Contains(p.files, pat)
    ensures Contains(Body(p), pat)
  {
    var before := "\n    <p>A merge conflict occured while trying to merge " + p.description + ".</p>\n\n    " + p.prLink + "\n\n    ";
    ContainsWithin(before, p.files, "\n  ", pat);
    assert Body(p) == before + p.files + "\n  ";
  }

  datatype Mail = Mail(subject: string, html: string)

  /** Every conflicting path of the error shows up in the body as its
      rendered list item. */
  lemma BodyListsEveryPath(repoName: Option<string>, href: string, ref: Option<string>, err: MergeError, prUrl: Option<string>,
                           item: string -> string)
    ensures forall i :: 0 <= i < |err.conflicts| ==>
      Contains(Body(Parts(repoName, href, ref, err, prUrl, item)), item(err.conflicts[i].path))
  {
    var p := Parts(repoName, href, ref, err, prUrl, item);
    forall i | 0 <= i < |err.conflicts|
      ensures Contains(Body(p), item(err.conflicts[i].path))
    {
      FilesShowPath(p, err, item, i);
      BodyShowsFiles(p, item(err.conflicts[i].path));
    }
  }

  /** The files part lists conflict `i`, whichever part was chosen for it. */
  lemma FilesShowPath(p: MailParts, err: MergeError, item: string -> string, i: int)
    requires p.files != "" <==> |ListedConflicts(err)| > 0
    requires p.files != "" ==> p.files == FilesList(ListedConflicts(err), item)
    requires 0 <= i < |err.conflicts|
    ensures Contains(p.files, item(err.conflicts[i].path))
  {
    var j := ListedIndex(err, i);
    FilesListEveryPath(ListedConflicts(err), item, j);
  }

  /** Where conflict `i`'s path sits among the listed conflicts. */
  lemma ListedIndex(err: MergeError, i: int) returns (j: int)
    requires 0 <= i < |err.conflicts|
    ensures 0 <= j < |ListedConflicts(err)| && ListedConflicts(err)[j].path == err.conflicts[i].path
  {
    var listed := ListedConflicts(err);
    var path := err.conflicts[i].path;
    assert path in Keys(listed, Path) by {
      assert Keys(err.conflicts, Path)[i] == path;
    }
    j := FirstIndex(Keys(listed, Path), path);
  }

  /** The mail `sendConflictMail` sends once the pull request was attempted,
      as written: the subject names the repository, and every conflicting
      path shows up in the body as `<li>path<li>`. */
  function ConflictMail(repoName: Option<string>, href: string, ref: Option<string>, err: MergeError, prUrl: Option<string>): (m: Mail)
    ensures |m.subject| >= 18 && m.subject[..18] == "Merge conflict in " && m.subject[18..] == Quoted(Show(repoName))
    ensures forall i :: 0 <= i < |err.conflicts| ==> Contains(m.html, "<li>" + err.conflicts[i].path + "<li>")
  {
    var subject := "Merge conflict in " + Quoted(Show(repoName));
    assert subject[..18] == "Merge conflict in " && subject[18..] == Quoted(Show(repoName));
    var html := Body(Parts(repoName, href, ref, err, prUrl, ListItemAsWritten));
    BodyListsEveryPath(repoName, href, ref, err, prUrl, ListItemAsWritten);
    assert forall i :: 0 <= i < |err.conflicts| ==> Contains(html, ListItemAsWritten(err.conflicts[i].path));
    Mail(subject, html)
  }

  /** The mail with the list items closed: every conflicting path shows up
      in the body as `<li>path</li>`. */
  function IntendedConflictMail(repoName: Option<string>, href: string, ref: Option<string>, err: MergeError, prUrl: Option<string>): (m: Mail)
    ensures m.subject == ConflictMail(repoName, href, ref, err, prUrl).subject
    ensures forall i :: 0 <= i < |err.conflicts| ==> Contains(m.html, "<li>" + err.conflicts[i].path + "</li>")
  {
    var html := Body(Parts(repoName, href, ref, err, prUrl, ListItem));
    BodyListsEveryPath(repoName, href, ref, err, prUrl, ListItem);
    assert forall i :: 0 <= i < |err.conflicts| ==> Contains(html, ListItem(err.conflicts[i].path));
    Mail("Merge conflict in " + Quoted(Show(repoName)), html)
  }
}

=== FILE: logger.dfy ===
/** The log-line format of src/simple-logger.js. The clock reading
    (`new Date().toUTCString()`) is a parameter and the console sink is a
    trace of emitted lines. */
module Logger {
  import opened Outcomes
  import opened Text

  /** Everything before the messages: the bracketed timestamp, ` - label`
      when the label `tag` is non-empty, then `: `. */
  function Header(timestamp: string, tag: string): string {
    "[" + timestamp + "]" + (if tag != "" then " - " + tag else "") + ": "
  }

  /** The line `write(fn, label)(...msgs)` hands to `fn`. */
  function Line(timestamp: string, tag: Option<string>, msgs: seq<string>): (line: string)
    ensures tag.GetOr("") == "" ==> line == "[" + timestamp + "]: " + Join(msgs, " ")
    ensures tag.GetOr("") != "" ==> line == "[" + timestamp + "] - " + tag.value + ": " + Join(msgs, " ")
  {
    Header(timestamp, tag.GetOr("")) + Join(msgs, " ")
  }

  /** `write(fn, label)(...msgs)`: the sink receives exactly one line, the
      formatted one, after everything it had already received. */
  function Write(sink: seq<string>, timestamp: string, tag: Option<string>, msgs: seq<string>): (r: seq<string>)
    ensures |r| == |sink| + 1 && r[..|sink|] == sink
    ensures r[|sink|] == Line(timestamp, tag, msgs)
  {
    sink + [Line(timestamp, tag, msgs)]
  }

  /** An empty label is written exactly like no label. */
  lemma EmptyLabelIsNoLabel(timestamp: string, msgs: seq<string>)
    ensures Line(timestamp, Some(""), msgs) == Line(timestamp, None, msgs)
  {
  }

  /** The timestamp can be read back: it runs from after the `[` up to the
      first `]`, provided it holds no `]` itself. */
  lemma TimestampReadsBack(timestamp: string, tag: Option<string>, msgs: seq<string>)
    requires ']' !in timestamp
    ensures var line := Line(timestamp, tag, msgs);
      IndexOf(line, "]") == |timestamp| + 1 && line[1..|timestamp| + 1] == timestamp
  {
    var line := Line(timestamp, tag, msgs);
    var k := |timestamp| + 1;
    assert line[..k + 1] == "[" + timestamp + "]";
    assert OccursAt(line, "]", k);
    forall j | 0 <= j < k
      ensures !OccursAt(line, "]", j)
    {
      assert line[j] == ("[" + timestamp)[j];
      if j > 0 {
        assert line[j] == timestamp[j - 1];
      }
    }
  }

  /** The messages can be read back: splitting what follows the header at
      spaces gives them back, provided none contains a space. */
  lemma MessagesReadBack(timestamp: string, tag: Option<string>, msgs: seq<string>)
    requires |msgs| >= 1
    requires forall i :: 0 <= i < |msgs| ==> ' ' !in msgs[i]
    ensures var h := Header(timestamp, tag.GetOr(""));
      var line := Line(timestamp, tag, msgs);
      line[..|h|] == h && Split(line[|h|..], ' ') == msgs
  {
    var h := Header(timestamp, tag.GetOr(""));
    var line := Line(timestamp, tag, msgs);
    assert line[|h|..] == Join(msgs, " ");
    SplitJoin(msgs, ' ');
  }
}

=== FILE: merge_error.dfy ===
/** The merge-failure record (src/merge-error.js) and how the merge step
    (src/merge-branch-pair.js) builds it. */
module MergeErrors {
  import opened Outcomes
  import opened Text

  /** A conflicting index entry: its object id as rendered, and its path. */
  datatype IndexEntry = IndexEntry(id: string, path: string)

  /** The mandatory third constructor argument; a missing property is
      `None`. */
  datatype PairArg = PairArg(upstream: Option<string>, head: Option<string>)

  datatype MergeError = MergeError(message: string, conflicts: seq<IndexEntry>, upstream: Option<string>, head: Option<string>)

  const DefaultMessage := "Merge Error occured"

  /** `new MergeError(message, conflicts, {upstream, head})`. Omitted message
      and conflicts take their defaults; an omitted third argument cannot be
      destructured and throws a TypeError. */
  function NewMergeError(message: Option<string>, conflicts: Option<seq<IndexEntry>>, pair: Option<PairArg>): (r: Result<MergeError, JsError>)
    ensures r.Err? <==> pair.None?
    ensures r.Err? ==> r.error.TypeError?
    ensures r.Ok? ==> r.value.message == message.GetOr(DefaultMessage)
    ensures r.Ok? ==> r.value.conflicts == conflicts.GetOr([])
    ensures r.Ok? ==> r.value.upstream == pair.value.upstream && r.value.head == pair.value.head
  {
    match pair
    case None => Err(TypeError("Cannot destructure property 'upstream' of 'undefined'"))
    case Some(p) => Ok(MergeError(message.GetOr(DefaultMessage), conflicts.GetOr([]), p.upstream, p.head))
  }

  /** One line of the conflict listing: a tab, the id, a space, the path. */
  function ConflictLine(c: IndexEntry): string {
    "\t" + c.id + " " + c.path
  }

  function ConflictLines(cs: seq<IndexEntry>): (lines: seq<string>)
    ensures |lines| == |cs|
    ensures forall i :: 0 <= i < |cs| ==> lines[i] == ConflictLine(cs[i])
  {
    seq(|cs|, i requires 0 <= i < |cs| => ConflictLine(cs[i]))
  }

  /** `MergeError.prototype.toString`. */
  function ToString(e: MergeError): (s: string)
    ensures |s| > |e.message| && s[..|e.message| + 1] == e.message + "\n"
    ensures e.conflicts == [] ==> s == e.message + "\n"
  {
    e.message + "\n" + Join(ConflictLines(e.conflicts), "\n")
  }

  predicate SingleLine(s: string) {
    '\n' !in s
  }

  /** Reading the text back line by line gives the message, then one line
      per conflict (or one empty line when there are none), provided no
      message, id or path spans lines. */
  lemma ToStringLines(e: MergeError)
    requires SingleLine(e.message)
    requires forall i :: 0 <= i < |e.conflicts| ==> SingleLine(e.conflicts[i].id) && SingleLine(e.conflicts[i].path)
    ensures Split(ToString(e), '\n') ==
      [e.message] + (if e.conflicts == [] then [""] else ConflictLines(e.conflicts))
  {
    var lines := ConflictLines(e.conflicts);
    assert e.message + "\n" + Join(lines, "\n") == e.message + ['\n'] + Join(lines, ['\n']);
    SplitAfterSeparator(e.message, Join(lines, "\n"), '\n');
    if e.conflicts == [] {
      SplitNoSeparator("", '\n');
    } else {
      forall i | 0 <= i < |lines|
        ensures '\n' !in lines[i]
      {
        var c := e.conflicts[i];
        assert lines[i] == "\t" + c.id + " " + c.path;
      }
      SplitJoin(lines, '\n');
    }
  }

  /** The merge step's conflict report as written (src/merge-branch-pair.js
      lines 25, 27 and 61): the constructor gets a message and possibly the
      conflicting entries, but no third argument. */
  function ConflictErrorAsWritten(message: string, conflicts: Option<seq<IndexEntry>>): Result<MergeError, JsError> {
    NewMergeError(Some(message), conflicts, None)
  }

  /** As written, a conflict is never reported as a MergeError: building it
      throws a TypeError. */
  lemma ConflictBecomesTypeError(message: string, conflicts: Option<seq<IndexEntry>>)
    ensures ConflictErrorAsWritten(message, conflicts).Err?
    ensures ConflictErrorAsWritten(message, conflicts).error.TypeError?
  {
  }

  /** The evidently intended construction: the hop being merged is passed
      as the third argument, so the error names both branches. */
  function ConflictError(message: string, conflicts: Option<seq<IndexEntry>>, upstream: string, head: string): (r: Result<MergeError, JsError>)
    ensures r.Ok?
    ensures r.value.upstream == Some(upstream) && r.value.head == Some(head)
    ensures r.value.conflicts == conflicts.GetOr([])
    ensures r.value.message == message
  {
    NewMergeError(Some(message), conflicts, Some(PairArg(Some(upstream), Some(head))))
  }
}

=== FILE: orchestrator.dfy ===
/** The decisions of the service entry point (index.js): which pushes are
    queued and under which ref, which hop a queued job merges, what a failed
    job leads to, and which jobs a start-up resync queues. The git engine
    is a parameter (`git` answers how merging a hop went), as are the
    branch chain `getBranches` produced and whether a re-clone succeeded. */
module Orchestrator {
  import opened Outcomes
  import opened Text
  import opened Seqs
  import BranchPairs
  import BranchName
  import Branches
  import SyncConfig
  import WorkerQueue
  import MergeErrors

  type Hop = BranchPairs.Hop

  /** The payload of a merge job: the ref the processor starts from
      (`undefined` is possible for jobs queued at start-up). The webhook's
      `data` is never read and is left out. */
  datatype Payload = Payload(ref: Option<string>)

  /** The worker-queue label of a repository's jobs: `repoConfig.name`,
      which `addMessage` and `cancelAllPending` both default to `''`. */
  function JobLabel(repoName: Option<string>): string {
    repoName.GetOr("")
  }

  // ---------------------------------------------------------------------
  // The webhook handler (index.js lines 116-123)
  // ---------------------------------------------------------------------

  /** Rule `k` accepts the ref and every rule before it has a filter, so
      the search reaches it without throwing. */
  predicate AcceptedAt(rules: seq<Branches.Rule>, ref: string, k: int) {
    && 0 <= k < |rules|
    && Branches.Accepts(rules[k], ref)
    && forall j :: 0 <= j < k ==> rules[j].nameFilter.Some?
  }

  /** `repoConfig.branches.some(branch => branch.nameFilterFn(ref))`: the
      rules are asked in order until one accepts; reaching a rule without a
      filter calls `undefined`, which throws. */
  function PushMatches(rules: seq<Branches.Rule>, ref: string): (r: Result<bool, JsError>)
    ensures r == Ok(true) <==> exists k :: AcceptedAt(rules, ref, k)
    ensures r == Ok(false) <==>
      forall k :: 0 <= k < |rules| ==> rules[k].nameFilter.Some? && !Branches.Accepts(rules[k], ref)
    ensures r.Err? ==> r.error.TypeError?
    decreases |rules|
  {
    if |rules| == 0 then Ok(false)
    else
      match rules[0].nameFilter
      case None => Err(TypeError("branch.nameFilterFn is not a function"))
      case Some(f) =>
        if f(ref) then
          assert AcceptedAt(rules, ref, 0);
          Ok(true)
        else
          var rest := PushMatches(rules[1..], ref);
          assert forall k :: 1 <= k < |rules| ==> rules[k] == rules[1..][k - 1];
          assert rest == Ok(true) ==> exists k :: AcceptedAt(rules, ref, k) by {
            if rest == Ok(true) {
              var k :| AcceptedAt(rules[1..], ref, k);
              assert AcceptedAt(rules, ref, k + 1);
            }
          }
          assert (exists k :: AcceptedAt(rules, ref, k)) ==> rest == Ok(true) by {
            if exists k :: AcceptedAt(rules, ref, k) {
              var k :| AcceptedAt(rules, ref, k);
              assert AcceptedAt(rules[1..], ref, k - 1);
            }
          }
          rest
  }

  /** How a value reads inside a template literal: JavaScript's string
      conversion of the YAML value (an array joins its items with commas,
      writing nothing for a null item; an object reads `[object Object]`). */
  function TemplateText(y: SyncConfig.Yaml): string
    decreases y
  {
    match y
    case YNull => "null"
    case YString(s) => s
    case YNumber(n) => IntToString(n)
    case YBool(b) => if b then "true" else "false"
    case YList(items) =>
      Join(seq(|items|, i requires 0 <= i < |items| =>
        if items[i].YNull? then "" else TemplateText(items[i])), ",")
    case YMap(_) => "[object Object]"
  }

  /** `ref.replace('/heads/', `/remotes/${repoConfig.remote_name}/`)`: the
      ref the queued job works on. Only the first `/heads/` is replaced. */
  function QueuedRef(ref: string, remoteName: SyncConfig.Yaml): (r: string)
    ensures !Contains(ref, "/heads/") ==> r == ref
  {
    ReplaceFirst(ref, "/heads/", "/remotes/" + TemplateText(remoteName) + "/")
  }

  /** A pushed branch ref becomes the matching remote-tracking ref. */
  lemma HeadRefBecomesRemoteRef(branch: string, remote: string)
    ensures QueuedRef("refs/heads/" + branch, SyncConfig.YString(remote)) == "refs/remotes/" + remote + "/" + branch
  {
    var s := "refs/heads/" + branch;
    var rep := "/remotes/" + remote + "/";
    HeadsAtFour(branch);
    assert ReplaceFirst(s, "/heads/", rep) == s[..4] + rep + s[11..];
    assert s[..4] == "refs" && s[11..] == branch;
    assert "refs" + "/remotes/" == "refs/remotes/";
    assert "refs" + rep + branch == ("refs" + "/remotes/") + remote + "/" + branch;
  }

  /** In a branch ref, `/heads/` first occurs right after `refs`. */
  lemma HeadsAtFour(branch: string)
    ensures IndexOf("refs/heads/" + branch, "/heads/") == 4
  {
    var s := "refs/heads/" + branch;
    assert s[4..11] == "/heads/";
    assert OccursAt(s, "/heads/", 4);
    assert s[..4] == "refs";
    forall j | 0 <= j < 4
      ensures !OccursAt(s, "/heads/", j)
    {
      assert s[j] == s[..4][j] != '/';
    }
    var i := IndexOf(s, "/heads/");
    assert 0 <= i <= 4;
  }

  /** Rewriting a pushed ref and then stripping it the way `mergeBranchPair`
      does gives the pushed branch back, for a remote whose name is found
      first where it follows `refs/remotes/`. */
  lemma QueuedRefNamesPushedBranch(branch: string, remote: string)
    requires IndexOf("refs/remotes/" + remote, remote) == 13
    ensures BranchName.ParseBranchName(QueuedRef("refs/heads/" + branch, SyncConfig.YString(remote)), remote) == branch
  {
    HeadRefBecomesRemoteRef(branch, remote);
    BranchName.RemoteTrackingRef(remote, branch);
  }

  /** `queueMergeJob`: the job carries a processor, so `addMessage` accepts
      it; it is queued last under the repository's label. Its cancellation
      is caught and only logged. */
  function QueueMergeJob(q: WorkerQueue.Queue<Payload>, repoName: Option<string>, payload: Payload): (r: (WorkerQueue.Queue<Payload>, nat))
    ensures r.0.pending == q.pending + [WorkerQueue.Entry(r.1, JobLabel(repoName), WorkerQueue.Message(true, payload))]
    ensures r.0.inFlight == q.inFlight && r.0.log == q.log
    ensures r.1 == q.nextTicket && r.0.nextTicket == q.nextTicket + 1
    ensures WorkerQueue.Valid(q) ==> WorkerQueue.Valid(r.0) && r.1 !in WorkerQueue.Order(q)
    ensures WorkerQueue.Valid(q) ==> forall e :: e in q.pending ==> e.ticket != r.1
  {
    var r := WorkerQueue.AddMessage(q, Some(WorkerQueue.Message(true, payload)), repoName).value;
    PendingTicketsInOrder(q);
    r
  }

  lemma PendingTicketsInOrder(q: WorkerQueue.Queue<Payload>)
    ensures forall e :: e in q.pending ==> e.ticket in WorkerQueue.Order(q)
  {
    forall e | e in q.pending
      ensures e.ticket in WorkerQueue.Order(q)
    {
      var i :| 0 <= i < |q.pending| && q.pending[i] == e;
      var inv := WorkerQueue.TicketsOf(q.log, WorkerQueue.Invoked);
      assert WorkerQueue.Order(q)[|inv| + i] == e.ticket;
    }
  }

  /** The push listener of one repository: a push that some rule accepts
      is queued under the rewritten ref; any other push leaves the queue
      alone; a rule without a filter reached before any match throws. */
  function OnPush(q: WorkerQueue.Queue<Payload>, repoName: Option<string>, remoteName: SyncConfig.Yaml,
                  rules: seq<Branches.Rule>, ref: string): (r: Result<WorkerQueue.Queue<Payload>, JsError>)
    ensures r.Err? <==> PushMatches(rules, ref).Err?
    ensures PushMatches(rules, ref) == Ok(false) ==> r == Ok(q)
    ensures PushMatches(rules, ref) == Ok(true) ==>
      && r.Ok?
      && |r.value.pending| == |q.pending| + 1
      && r.value.pending[..|q.pending|] == q.pending
      && r.value.pending[|q.pending|].tag == JobLabel(repoName)
      && r.value.pending[|q.pending|].message == WorkerQueue.Message(true, Payload(Some(QueuedRef(ref, remoteName))))
    ensures r.Ok? && WorkerQueue.Valid(q) ==> WorkerQueue.Valid(r.value)
  {
    match PushMatches(rules, ref)
    case Err(e) => Err(e)
    case Ok(matches) =>
      if matches then
        var (q', t) := QueueMergeJob(q, repoName, Payload(Some(QueuedRef(ref, remoteName))));
        assert q'.pending[..|q.pending|] == q.pending;
        Ok(q')
      else Ok(q)
  }

  // ---------------------------------------------------------------------
  // Which hop a job merges (index.js lines 53-61)
  // ---------------------------------------------------------------------

  /** The hop a push job merges, as written: `getBranchPairs(chain, ref, 1)`,
      then the first element of whatever comes back, then the shape check
      of `mergeBranchPair`. A chain of at most two branches comes back as
      the branch names themselves, so the "pair" is a branch name: a
      two-character name is split into two one-character refs, any other
      non-empty one is rejected. */
  function NextHopAsWritten(chain: seq<string>, ref: Option<string>): (r: Result<Option<Hop>, JsError>)
    ensures |chain| > 2 ==> (r.Err? <==> ref.GetOr(chain[0]) !in chain)
    ensures |chain| <= 2 ==> (r.Err? <==> |chain| > 0 && chain[0] != "" && |chain[0]| != 2)
    ensures |chain| <= 2 ==> (r.Ok? && r.value.Some? <==> |chain| > 0 && |chain[0]| == 2)
    ensures |chain| <= 2 && r.Ok? && r.value.Some? ==>
      r.value.value == (chain[0][..1], chain[0][1..]) && |r.value.value.0| == 1 && |r.value.value.1| == 1
  {
    match BranchPairs.GetBranchPairs(chain, ref, 1)
    case NotFound(s) => Err(PlainError("Branch \"" + s + "\" not found."))
    case Pairs(ps) => if |ps| == 0 then Ok(None) else Ok(Some(ps[0]))
    case Degenerate(bs) =>
      if |bs| == 0 || bs[0] == "" then Ok(None)
      else if |bs[0]| == 2 then
        assert [bs[0][0]] == bs[0][..1] && [bs[0][1]] == bs[0][1..];
        Ok(Some(([bs[0][0]], [bs[0][1]])))
      else Err(PlainError("mergeBranchPair: invalid branchPairs value (got " + bs[0] + ")"))
  }

  /** The hop a push job merges, windowing every chain alike: the start
      branch (the job's ref, or the chain's first branch) and its successor;
      nothing when the start is the last branch; the not-found error when
      the start is not in the chain. */
  function NextHop(chain: seq<string>, ref: Option<string>): (r: Result<Option<Hop>, JsError>)
    ensures r.Err? <==> |chain| > 0 && ref.GetOr(chain[0]) !in chain
    ensures r.Ok? && r.value.Some? ==>
      && |chain| > 0
      && r.value.value.0 == ref.GetOr(chain[0])
      && exists i :: 0 <= i < |chain| - 1 && r.value.value == (chain[i], chain[i + 1])
    ensures r == Ok(None) <==> |chain| == 0 || (ref.GetOr(chain[0]) == chain[|chain| - 1] && ref.GetOr(chain[0]) !in chain[..|chain| - 1])
  {
    if |chain| == 0 then Ok(None)
    else
      var s := ref.GetOr(chain[0]);
      var i := FirstIndex(chain, s);
      if i == -1 then Err(PlainError("Branch \"" + s + "\" not found."))
      else if i + 1 < |chain| then
        assert s in chain[..|chain| - 1] by {
          assert chain[..|chain| - 1][i] == s;
        }
        Ok(Some((chain[i], chain[i + 1])))
      else
        assert chain[..i] == chain[..|chain| - 1];
        Ok(None)
  }

  /** A push job on a chain without repeated branches merges exactly the hop
      from its branch to the next one, or nothing from the last branch. */
  lemma PushMergesOneHop(chain: seq<string>, i: int)
    requires NoDuplicates(chain) && 0 <= i < |chain|
    ensures NextHop(chain, Some(chain[i])) == if i + 1 < |chain| then Ok(Some((chain[i], chain[i + 1]))) else Ok(None)
  {
    var j := FirstIndex(chain, chain[i]);
    assert chain[j] == chain[i];
  }

  /** On chains of more than two branches the code as written picks the
      same hop as the uniform windowing. */
  lemma NextHopAgreesOnLongChains(chain: seq<string>, ref: Option<string>)
    requires |chain| > 2
    ensures NextHopAsWritten(chain, ref) == NextHop(chain, ref)
  {
    var s := ref.GetOr(chain[0]);
    assert BranchPairs.GetBranchPairs(chain, ref, 1) == BranchPairs.GetBranchPairs(chain, Some(s), 1);
    if s in chain {
      BranchPairs.HopWindow(chain, s, 1);
    }
  }

  // ---------------------------------------------------------------------
  // Failures (index.js lines 62-77, src/merge-branch-pair.js)
  // ---------------------------------------------------------------------

  /** How git answered the attempt to merge a hop: cleanly, with a conflict
      (the message and conflicting index entries `mergeBranchPair` collects,
      and the branch names it was merging), or with some other error. */
  datatype GitOutcome =
    | Clean
    | Conflict(message: string, conflicts: Option<seq<MergeErrors.IndexEntry>>, upstream: string, head: string)
    | Broken(error: JsError)

  /** Why a job failed: a `MergeError`, or anything else. */
  datatype Failure = MergeFailure(err: MergeErrors.MergeError) | OtherFailure(error: JsError)

  /** What the failure handler goes on to do after canceling the
      repository's pending jobs. */
  datatype FollowUp = SendConflictMail(err: MergeErrors.MergeError) | CloneAgain

  datatype PushOutcome =
    | NoNextBranch
    | Synced(hop: Hop)
    | Failed(failure: Failure, cancelTag: Option<string>, followUp: FollowUp)

  /** The `catch` of `pushEventProcessor`: every failure cancels all pending
      jobs labelled with the repository's name; a `MergeError` is mailed,
      anything else leads to a fresh clone and a full resync. The contract
      is that whole policy (index.js lines 63-77); there is nothing more. */
  function OnFailure(repoName: Option<string>, f: Failure): (o: PushOutcome)
    ensures o.Failed? && o.failure == f && o.cancelTag == repoName
    ensures o.followUp.SendConflictMail? <==> f.MergeFailure?
    ensures f.MergeFailure? ==> o.followUp.err == f.err
  {
    match f
    case MergeFailure(err) => Failed(f, repoName, SendConflictMail(err))
    case OtherFailure(_) => Failed(f, repoName, CloneAgain)
  }

  /** How `mergeBranchPair` ends once git has answered, as written: a
      conflict runs `new MergeError(message, conflicts)` without the branch
      pair argument, whose destructuring throws a TypeError instead. */
  function MergeResultAsWritten(g: GitOutcome): (r: Option<Failure>)
    ensures r.None? <==> g.Clean?
    ensures g.Broken? ==> r == Some(OtherFailure(g.error))
    ensures g.Conflict? ==> r.Some? && r.value.OtherFailure? && r.value.error.TypeError?
    ensures r.Some? ==> r.value.OtherFailure?
  {
    match g
    case Clean => None
    case Broken(e) => Some(OtherFailure(e))
    case Conflict(m, cs, _, _) =>
      MergeErrors.ConflictBecomesTypeError(m, cs);
      match MergeErrors.ConflictErrorAsWritten(m, cs)
      case Ok(err) => Some(MergeFailure(err))
      case Err(e) => Some(OtherFailure(e))
  }

  /** How `mergeBranchPair` ends once git has answered, with the branch pair
      passed to the `MergeError`: a conflict is a `MergeError` naming the
      two branches. */
  function MergeResult(g: GitOutcome): (r: Option<Failure>)
    ensures r.None? <==> g.Clean?
    ensures g.Broken? ==> r == Some(OtherFailure(g.error))
    ensures g.Conflict? ==>
      && r.Some? && r.value.MergeFailure?
      && r.value.err.message == g.message
      && r.value.err.conflicts == g.conflicts.GetOr([])
      && r.value.err.upstream == Some(g.upstream) && r.value.err.head == Some(g.head)
  {
    match g
    case Clean => None
    case Broken(e) => Some(OtherFailure(e))
    case Conflict(m, cs, up, hd) => Some(MergeFailure(MergeErrors.ConflictError(m, cs, up, hd).value))
  }

  /** One run of `pushEventProcessor`, as written. */
  function HandlePushAsWritten(repoName: Option<string>, chain: Result<seq<string>, JsError>, ref: Option<string>,
                               git: Hop -> GitOutcome): (o: PushOutcome)
    ensures chain.Err? ==> o == Failed(OtherFailure(chain.error), repoName, CloneAgain)
    ensures chain.Ok? && NextHopAsWritten(chain.value, ref).Err? ==>
      o == Failed(OtherFailure(NextHopAsWritten(chain.value, ref).error), repoName, CloneAgain)
    ensures o.NoNextBranch? <==> chain.Ok? && NextHopAsWritten(chain.value, ref) == Ok(None)
    ensures o.Synced? ==> chain.Ok? && NextHopAsWritten(chain.value, ref) == Ok(Some(o.hop)) && git(o.hop).Clean?
    ensures o.Failed? ==> o.cancelTag == repoName && o.failure.OtherFailure? && o.followUp == CloneAgain
    ensures chain.Ok? && NextHopAsWritten(chain.value, ref).Ok? && NextHopAsWritten(chain.value, ref).value.Some? ==>
      var h := NextHopAsWritten(chain.value, ref).value.value;
      && (git(h).Clean? ==> o == Synced(h))
      && (git(h).Broken? ==> o == Failed(OtherFailure(git(h).error), repoName, CloneAgain))
      && (git(h).Conflict? ==> o.Failed? && o.failure.error.TypeError?)
  {
    match chain
    case Err(e) => OnFailure(repoName, OtherFailure(e))
    case Ok(b) =>
      match NextHopAsWritten(b, ref)
      case Err(e) => OnFailure(repoName, OtherFailure(e))
      case Ok(None) => NoNextBranch
      case Ok(Some(h)) =>
        match MergeResultAsWritten(git(h))
        case None => Synced(h)
        case Some(f) => OnFailure(repoName, f)
  }

  /** One run of `pushEventProcessor`: the chain, then at most one hop from
      the job's ref, then the merge; any failure goes to the handler. */
  function HandlePush(repoName: Option<string>, chain: Result<seq<string>, JsError>, ref: Option<string>,
                      git: Hop -> GitOutcome): (o: PushOutcome)
    ensures chain.Err? ==> o == Failed(OtherFailure(chain.error), repoName, CloneAgain)
    ensures chain.Ok? && NextHop(chain.value, ref) == Ok(None) ==> o == NoNextBranch
    ensures chain.Ok? && NextHop(chain.value, ref).Err? ==>
      o == Failed(OtherFailure(NextHop(chain.value, ref).error), repoName, CloneAgain)
    ensures o.Synced? ==> chain.Ok? && NextHop(chain.value, ref) == Ok(Some(o.hop)) && git(o.hop).Clean?
    ensures o.Failed? ==> o.cancelTag == repoName
    ensures chain.Ok? && NextHop(chain.value, ref).Ok? && NextHop(chain.value, ref).value.Some? ==>
      var h := NextHop(chain.value, ref).value.value;
      && (git(h).Clean? ==> o == Synced(h))
      && (git(h).Conflict? ==>
            && o.Failed? && o.followUp.SendConflictMail?
            && o.followUp.err.upstream == Some(git(h).upstream) && o.followUp.err.head == Some(git(h).head))
      && (git(h).Broken? ==> o == Failed(OtherFailure(git(h).error), repoName, CloneAgain))
  {
    match chain
    case Err(e) => OnFailure(repoName, OtherFailure(e))
    case Ok(b) =>
      match NextHop(b, ref)
      case Err(e) => OnFailure(repoName, OtherFailure(e))
      case Ok(None) => NoNextBranch
      case Ok(Some(h)) =>
        match MergeResult(git(h))
        case None => Synced(h)
        case Some(f) => OnFailure(repoName, f)
  }

  /** As written, a merge conflict never reaches the mail: the failed
      `MergeError` construction is an ordinary error, so the repository is
      cloned again instead. */
  lemma ConflictIsReclonedAsWritten(repoName: Option<string>, chain: seq<string>, ref: Option<string>, git: Hop -> GitOutcome)
    requires NextHopAsWritten(chain, ref).Ok? && NextHopAsWritten(chain, ref).value.Some?
    requires git(NextHopAsWritten(chain, ref).value.value).Conflict?
    ensures HandlePushAsWritten(repoName, Ok(chain), ref, git).Failed?
    ensures HandlePushAsWritten(repoName, Ok(chain), ref, git).followUp == CloneAgain
    ensures HandlePushAsWritten(repoName, Ok(chain), ref, git).failure.OtherFailure?
  {
    var g := git(NextHopAsWritten(chain, ref).value.value);
    MergeErrors.ConflictBecomesTypeError(g.message, g.conflicts);
  }

  /** Apart from conflicts, the code as written and the corrected handler
      agree on every chain of more than two branches. */
  lemma HandlePushAgreesOnLongChains(repoName: Option<string>, chain: seq<string>, ref: Option<string>, git: Hop -> GitOutcome)
    requires |chain| > 2
    requires NextHop(chain, ref).Ok? && NextHop(chain, ref).value.Some? ==> !git(NextHop(chain, ref).value.value).Conflict?
    ensures HandlePushAsWritten(repoName, Ok(chain), ref, git) == HandlePush(repoName, Ok(chain), ref, git)
  {
    NextHopAgreesOnLongChains(chain, ref);
  }

  // ---------------------------------------------------------------------
  // Resync at start-up (index.js lines 87-100)
  // ---------------------------------------------------------------------

  /** `const [head] = item` for a string item: its first character, or
      `undefined` for the empty string. */
  function FirstChar(name: string): (r: Option<string>)
    ensures r.None? <==> name == ""
    ensures r.Some? ==> |r.value| == 1 && r.value == name[..1]
  {
    if name == "" then None else Some([name[0]])
  }

  /** `getBranchPairs(chain)` with its defaults: the raw chain when it has
      at most two branches, otherwise every consecutive pair. */
  lemma AllHopsFromFirst(chain: seq<string>)
    ensures |chain| <= 2 ==> BranchPairs.GetBranchPairs(chain, None, -1) == BranchPairs.Degenerate(chain)
    ensures |chain| > 2 ==>
      BranchPairs.GetBranchPairs(chain, None, -1)
        == BranchPairs.Pairs(seq(|chain| - 1, k requires 0 <= k < |chain| - 1 => (chain[k], chain[k + 1])))
  {
    if |chain| > 2 {
      BranchPairs.DefaultStartIsFirstBranch(chain, -1);
    }
  }

  /** The refs `queueSyncForRepo` queues for one chain, as written:
      `getBranchPairs(chain)` (start at the first branch, no cap), then the
      first element of each item. For a chain of pairs that is each hop's
      upstream branch; for a chain of at most two branches the items are
      the names themselves, whose first element is their first character. */
  function SyncRefsAsWritten(chain: seq<string>): (r: seq<Option<string>>)
    ensures |chain| <= 2 ==>
      |r| == |chain| && forall k :: 0 <= k < |chain| ==> r[k] == FirstChar(chain[k])
    ensures |chain| > 2 ==>
      |r| == |chain| - 1 && forall k :: 0 <= k < |chain| - 1 ==> r[k] == Some(chain[k])
  {
    AllHopsFromFirst(chain);
    match BranchPairs.GetBranchPairs(chain, None, -1)
    case Pairs(ps) => seq(|ps|, k requires 0 <= k < |ps| => Some(ps[k].0))
    case Degenerate(bs) => seq(|bs|, k requires 0 <= k < |bs| => FirstChar(bs[k]))
    case NotFound(_) => []
  }

  /** One job per hop of the chain, starting at the hop's upstream branch. */
  function SyncRefs(chain: seq<string>): seq<Option<string>> {
    seq(BranchPairs.Max(0, |chain| - 1), k requires 0 <= k < BranchPairs.Max(0, |chain| - 1) => Some(chain[k]))
  }

  /** The jobs queued at start-up for a chain without repeated branches
      merge every hop of the chain, each exactly once, in chain order. */
  lemma SyncCoversEveryHop(chain: seq<string>)
    requires NoDuplicates(chain)
    ensures |SyncRefs(chain)| == BranchPairs.Max(0, |chain| - 1)
    ensures forall k :: 0 <= k < |SyncRefs(chain)| ==> NextHop(chain, SyncRefs(chain)[k]) == Ok(Some((chain[k], chain[k + 1])))
  {
    forall k | 0 <= k < |SyncRefs(chain)|
      ensures NextHop(chain, SyncRefs(chain)[k]) == Ok(Some((chain[k], chain[k + 1])))
    {
      PushMergesOneHop(chain, k);
    }
  }

  /** On chains of more than two branches the code as written queues the
      same jobs as one per hop. */
  lemma SyncRefsAgreeOnLongChains(chain: seq<string>)
    requires |chain| > 2
    ensures SyncRefsAsWritten(chain) == SyncRefs(chain)
  {
    BranchPairs.DefaultStartIsFirstBranch(chain, -1);
  }

  /** A two-branch chain as written: the start-up jobs start at one-letter
      refs, and a push job on it is rejected by `mergeBranchPair`, where one
      hop per push would merge `main` into `develop`. */
  lemma TwoBranchChainAsWritten()
    ensures SyncRefsAsWritten(["main", "develop"]) == [Some("m"), Some("d")]
    ensures NextHopAsWritten(["main", "develop"], Some("main")).Err?
    ensures SyncRefs(["main", "develop"]) == [Some("main")]
    ensures NextHop(["main", "develop"], Some("main")) == Ok(Some(("main", "develop")))
  {
    var b := ["main", "develop"];
    assert BranchPairs.GetBranchPairs(b, None, -1) == BranchPairs.Degenerate(b);
    assert FirstIndex(b, "main") == 0;
  }

  /** A job queued at start-up: the repository it belongs to and its
      payload. */
  datatype SyncJob = SyncJob(repoName: Option<string>, payload: Payload)

  /** One repository and what `getBranches` answered for it: its chain, or
      the error its promise rejected with. */
  datatype SyncTarget = SyncTarget(repoName: Option<string>, chain: Result<seq<string>, JsError>)

  /** Every repository's branch listing succeeded, so `Promise.all`
      fulfils. */
  predicate ListingsSucceed(targets: seq<SyncTarget>) {
    forall i :: 0 <= i < |targets| ==> targets[i].chain.Ok?
  }

  function JobsFor(name: Option<string>, refs: seq<Option<string>>): (jobs: seq<SyncJob>)
    ensures |jobs| == |refs|
    ensures forall k :: 0 <= k < |refs| ==> jobs[k] == SyncJob(name, Payload(refs[k]))
  {
    seq(|refs|, k requires 0 <= k < |refs| => SyncJob(name, Payload(refs[k])))
  }

  /** For every repository in configuration order whose listing succeeded,
      one job per ref `refsOf` picks from its chain. */
  function JobsWith(targets: seq<SyncTarget>, refsOf: seq<string> -> seq<Option<string>>): seq<SyncJob>
    decreases |targets|
  {
    if |targets| == 0 then []
    else
      var first := match targets[0].chain
        case Ok(chain) => JobsFor(targets[0].repoName, refsOf(chain))
        case Err(_) => [];
      first + JobsWith(targets[1..], refsOf)
  }

  /** The jobs a resync queues, as written (index.js line 96). */
  function SyncJobs(targets: seq<SyncTarget>): seq<SyncJob> {
    JobsWith(targets, SyncRefsAsWritten)
  }

  /** The jobs a resync would queue with one job per hop. */
  function IntendedSyncJobs(targets: seq<SyncTarget>): seq<SyncJob> {
    JobsWith(targets, SyncRefs)
  }

  /** The job belongs to repository `i`, whose listing succeeded, and
      carries the `m`-th ref `refsOf` picks from its chain. */
  predicate PickedFrom(job: SyncJob, targets: seq<SyncTarget>, refsOf: seq<string> -> seq<Option<string>>, i: int, m: int) {
    && 0 <= i < |targets|
    && targets[i].chain.Ok?
    && job.repoName == targets[i].repoName
    && 0 <= m < |refsOf(targets[i].chain.value)|
    && job.payload == Payload(refsOf(targets[i].chain.value)[m])
  }

  lemma {:induction false} JobsWithBelong(targets: seq<SyncTarget>, refsOf: seq<string> -> seq<Option<string>>, k: int)
    requires 0 <= k < |JobsWith(targets, refsOf)|
    ensures exists i, m :: PickedFrom(JobsWith(targets, refsOf)[k], targets, refsOf, i, m)
    decreases |targets|
  {
    var first := match targets[0].chain
      case Ok(chain) => JobsFor(targets[0].repoName, refsOf(chain))
      case Err(_) => [];
    var jobs := JobsWith(targets, refsOf);
    assert jobs == first + JobsWith(targets[1..], refsOf);
    if k < |first| {
      assert jobs[k] == first[k];
      assert PickedFrom(jobs[k], targets, refsOf, 0, k);
    } else {
      JobsWithBelong(targets[1..], refsOf, k - |first|);
      assert jobs[k] == JobsWith(targets[1..], refsOf)[k - |first|];
      var i, m :| PickedFrom(JobsWith(targets[1..], refsOf)[k - |first|], targets[1..], refsOf, i, m);
      assert targets[1..][i] == targets[i + 1];
      assert PickedFrom(jobs[k], targets, refsOf, i + 1, m);
    }
  }

  /** What a job queued as written starts from: on a chain of more than
      two branches, the upstream branch of one of its hops; on a shorter
      chain, the first character of one of its branch names. */
  predicate QueuedAsWritten(job: SyncJob, targets: seq<SyncTarget>, i: int) {
    && 0 <= i < |targets|
    && targets[i].chain.Ok?
    && job.repoName == targets[i].repoName
    && var chain := targets[i].chain.value;
       if |chain| > 2 then exists j :: 0 <= j < |chain| - 1 && job.payload == Payload(Some(chain[j]))
       else exists j :: 0 <= j < |chain| && job.payload == Payload(FirstChar(chain[j]))
  }

  /** Every job of a resync as written belongs to a repository whose
      listing succeeded. On a chain of more than two branches it starts at
      a hop; on a shorter one it starts at a one-letter ref (or none). */
  lemma SyncJobsBelong(targets: seq<SyncTarget>, k: int)
    requires 0 <= k < |SyncJobs(targets)|
    ensures exists i :: QueuedAsWritten(SyncJobs(targets)[k], targets, i)
  {
    JobsWithBelong(targets, SyncRefsAsWritten, k);
    var i, m :| PickedFrom(SyncJobs(targets)[k], targets, SyncRefsAsWritten, i, m);
    var chain := targets[i].chain.value;
    if |chain| > 2 {
      assert SyncRefsAsWritten(chain)[m] == Some(chain[m]);
    } else {
      assert SyncRefsAsWritten(chain)[m] == FirstChar(chain[m]);
    }
    assert QueuedAsWritten(SyncJobs(targets)[k], targets, i);
  }

  /** The job belongs to repository `i` and starts at the upstream branch
      of one of its hops. */
  predicate StartsAtHopOf(job: SyncJob, targets: seq<SyncTarget>, i: int) {
    && 0 <= i < |targets|
    && targets[i].chain.Ok?
    && job.repoName == targets[i].repoName
    && exists j :: 0 <= j < |targets[i].chain.value| - 1 && job.payload == Payload(Some(targets[i].chain.value[j]))
  }

  /** With one job per hop, every resync job starts at a hop of its own
      repository's chain, whatever the chain's length. */
  lemma IntendedSyncJobsBelong(targets: seq<SyncTarget>, k: int)
    requires 0 <= k < |IntendedSyncJobs(targets)|
    ensures exists i :: StartsAtHopOf(IntendedSyncJobs(targets)[k], targets, i)
  {
    JobsWithBelong(targets, SyncRefs, k);
    var i, m :| PickedFrom(IntendedSyncJobs(targets)[k], targets, SyncRefs, i, m);
    assert SyncRefs(targets[i].chain.value)[m] == Some(targets[i].chain.value[m]);
    assert StartsAtHopOf(IntendedSyncJobs(targets)[k], targets, i);
  }

  /** `queueMergeJob` for each job in turn. */
  function EnqueueAll(q: WorkerQueue.Queue<Payload>, jobs: seq<SyncJob>): (r: WorkerQueue.Queue<Payload>)
    ensures |r.pending| == |q.pending| + |jobs|
    ensures r.pending[..|q.pending|] == q.pending
    ensures r.inFlight == q.inFlight && r.nextTicket == q.nextTicket + |jobs|
    ensures WorkerQueue.Valid(q) ==> WorkerQueue.Valid(r)
    decreases |jobs|
  {
    if |jobs| == 0 then q
    else
      var (q1, _) := QueueMergeJob(q, jobs[0].repoName, jobs[0].payload);
      var r := EnqueueAll(q1, jobs[1..]);
      assert r.pending[..|q.pending|] == r.pending[..|q1.pending|][..|q.pending|];
      r
  }

  /** The queued entries are the jobs, in order, each under its
      repository's label and with a ticket no earlier entry can hold. */
  lemma EnqueuedJobs(q: WorkerQueue.Queue<Payload>, jobs: seq<SyncJob>)
    ensures var r := EnqueueAll(q, jobs);
      forall k :: 0 <= k < |jobs| ==>
        && r.pending[|q.pending| + k].tag == JobLabel(jobs[k].repoName)
        && r.pending[|q.pending| + k].message == WorkerQueue.Message(true, jobs[k].payload)
    ensures var r := EnqueueAll(q, jobs);
      forall k :: |q.pending| <= k < |r.pending| ==> r.pending[k].ticket >= q.nextTicket
  {
    EnqueuedEntries(q, jobs);
    EnqueuedTickets(q, jobs);
  }

  lemma {:induction false} EnqueuedEntries(q: WorkerQueue.Queue<Payload>, jobs: seq<SyncJob>)
    ensures var r := EnqueueAll(q, jobs);
      forall k :: 0 <= k < |jobs| ==>
        && r.pending[|q.pending| + k].tag == JobLabel(jobs[k].repoName)
        && r.pending[|q.pending| + k].message == WorkerQueue.Message(true, jobs[k].payload)
    decreases |jobs|
  {
    if |jobs| > 0 {
      var (q1, t) := QueueMergeJob(q, jobs[0].repoName, jobs[0].payload);
      var r := EnqueueAll(q1, jobs[1..]);
      assert EnqueueAll(q, jobs) == r;
      EnqueuedEntries(q1, jobs[1..]);
      assert r.pending[|q.pending|] == r.pending[..|q1.pending|][|q.pending|];
      forall k | 1 <= k < |jobs|
        ensures r.pending[|q.pending| + k] == r.pending[|q1.pending| + (k - 1)]
        ensures jobs[k] == jobs[1..][k - 1]
      {
      }
    }
  }

  lemma {:induction false} EnqueuedTickets(q: WorkerQueue.Queue<Payload>, jobs: seq<SyncJob>)
    ensures forall k :: |q.pending| <= k < |EnqueueAll(q, jobs).pending| ==>
      EnqueueAll(q, jobs).pending[k].ticket >= q.nextTicket
    decreases |jobs|
  {
    if |jobs| > 0 {
      var (q1, t) := QueueMergeJob(q, jobs[0].repoName, jobs[0].payload);
      var r := EnqueueAll(q1, jobs[1..]);
      assert EnqueueAll(q, jobs) == r;
      EnqueuedTickets(q1, jobs[1..]);
      assert |q1.pending| == |q.pending| + 1 && q1.nextTicket == q.nextTicket + 1;
      assert r.pending[|q.pending|] == r.pending[..|q1.pending|][|q.pending|];
      assert r.pending[|q.pending|].ticket == t == q.nextTicket;
      forall k | |q.pending| <= k < |r.pending|
        ensures r.pending[k].ticket >= q.nextTicket
      {
        if k > |q.pending| {
          assert r.pending[k].ticket >= q1.nextTicket;
        }
      }
    }
  }

  /** The queue after `queueSyncAtStart`, and whether its promise
      fulfils. */
  datatype Resync = Resync(queue: WorkerQueue.Queue<Payload>, fulfilled: bool)

  /** `queueSyncAtStart`: nothing unless `SYNC_AT_START` is exactly
      `'true'`. Otherwise each repository whose branch listing succeeds
      has its jobs queued under its label, and `Promise.all` rejects when
      any listing fails. */
  function SyncAtStart(q: WorkerQueue.Queue<Payload>, syncAtStart: Option<string>, targets: seq<SyncTarget>): (r: Resync)
    ensures r.fulfilled <==> syncAtStart != Some("true") || ListingsSucceed(targets)
    ensures syncAtStart != Some("true") ==> r.queue == q
    ensures syncAtStart == Some("true") ==>
      var jobs := SyncJobs(targets);
      && |r.queue.pending| == |q.pending| + |jobs|
      && r.queue.pending[..|q.pending|] == q.pending
      && forall k :: 0 <= k < |jobs| ==>
           r.queue.pending[|q.pending| + k].tag == JobLabel(jobs[k].repoName)
           && r.queue.pending[|q.pending| + k].message.payload == jobs[k].payload
    ensures r.queue.inFlight == q.inFlight
    ensures WorkerQueue.Valid(q) ==> WorkerQueue.Valid(r.queue)
  {
    if syncAtStart == Some("true") then
      EnqueuedJobs(q, SyncJobs(targets));
      Resync(EnqueueAll(q, SyncJobs(targets)), ListingsSucceed(targets))
    else Resync(q, true)
  }

  // ---------------------------------------------------------------------
  // The end of a job
  // ---------------------------------------------------------------------

  /** The job's processor has failed and must go on to clone the repository
      again; whether it then stalls the queue. */
  predicate StallsAfterFailure(recloneOk: bool, syncAtStart: Option<string>, targets: seq<SyncTarget>) {
    !recloneOk || (syncAtStart == Some("true") && !ListingsSucceed(targets))
  }

  /** The running job's processor ends. After a failure the repository's
      pending jobs are canceled. On the re-clone path, a re-clone that
      succeeds runs `queueSyncAtStart` again (for every repository, and only
      when `SYNC_AT_START` is `'true'`), and the processor settles as that
      promise does. A re-clone that fails rejects the processor. Every
      other outcome fulfils. */
  function FinishJob(q: WorkerQueue.Queue<Payload>, o: PushOutcome, recloneOk: bool,
                     syncAtStart: Option<string>, targets: seq<SyncTarget>): (r: WorkerQueue.Queue<Payload>)
    ensures !o.Failed? ==> r == WorkerQueue.Settle(q, true)
    ensures WorkerQueue.Valid(q) && o.Failed? ==>
      forall e :: e in q.pending ==> (e in r.pending <==> e.tag != JobLabel(o.cancelTag))
    ensures o.Failed? && !(o.followUp.CloneAgain? && recloneOk && syncAtStart == Some("true")) ==>
      |r.pending| <= |q.pending|
    ensures o.Failed? && o.followUp.CloneAgain? && recloneOk && syncAtStart == Some("true") ==>
      var jobs := SyncJobs(targets);
      var kept := WorkerQueue.CancelAllPending(q, o.cancelTag).pending;
      && |r.pending| == |kept| + |jobs|
      && forall k :: 0 <= k < |jobs| ==>
           r.pending[|kept| + k].tag == JobLabel(jobs[k].repoName)
           && r.pending[|kept| + k].message.payload == jobs[k].payload
    ensures q.inFlight.Some? && !q.inFlight.value.stalled ==>
      (r.inFlight.None? <==> !(o.Failed? && o.followUp.CloneAgain? && StallsAfterFailure(recloneOk, syncAtStart, targets)))
    ensures WorkerQueue.Valid(q) ==> WorkerQueue.Valid(r)
  {
    if o.Failed? then
      if o.followUp.CloneAgain? && recloneOk then
        var rs := CancelAndResync(q, o.cancelTag, syncAtStart, targets);
        WorkerQueue.Settle(rs.queue, rs.fulfilled)
      else
        WorkerQueue.Settle(WorkerQueue.CancelAllPending(q, o.cancelTag), !o.followUp.CloneAgain?)
    else WorkerQueue.Settle(q, true)
  }

  /** The successful re-clone path: the repository's pending jobs are
      canceled, then `queueSyncAtStart` runs again. */
  function CancelAndResync(q: WorkerQueue.Queue<Payload>, tag: Option<string>,
                           syncAtStart: Option<string>, targets: seq<SyncTarget>): (r: Resync)
    ensures WorkerQueue.Valid(q) ==>
      forall e :: e in q.pending ==> (e in r.queue.pending <==> e.tag != JobLabel(tag))
    ensures r.fulfilled <==> syncAtStart != Some("true") || ListingsSucceed(targets)
    ensures syncAtStart != Some("true") ==> r.queue == WorkerQueue.CancelAllPending(q, tag)
    ensures syncAtStart == Some("true") ==>
      var jobs := SyncJobs(targets);
      var kept := WorkerQueue.CancelAllPending(q, tag).pending;
      && |r.queue.pending| == |kept| + |jobs|
      && forall k :: 0 <= k < |jobs| ==>
           r.queue.pending[|kept| + k].tag == JobLabel(jobs[k].repoName)
           && r.queue.pending[|kept| + k].message.payload == jobs[k].payload
    ensures r.queue.inFlight == q.inFlight
    ensures WorkerQueue.Valid(q) ==> WorkerQueue.Valid(r.queue)
  {
    CancelThenEnqueue(q, tag, SyncJobs(targets));
    SyncAtStart(WorkerQueue.CancelAllPending(q, tag), syncAtStart, targets)
  }

  /** In a valid queue every pending ticket was issued already. */
  lemma PendingBelowNext(q: WorkerQueue.Queue<Payload>)
    requires WorkerQueue.Valid(q)
    ensures forall e :: e in q.pending ==> e.ticket < q.nextTicket
  {
    PendingTicketsInOrder(q);
    forall e | e in q.pending
      ensures e.ticket < q.nextTicket
    {
      var order := WorkerQueue.Order(q);
      var m :| 0 <= m < |order| && order[m] == e.ticket;
    }
  }

  /** Entries appended with tickets from `n` on are none of the entries
      holding tickets below `n`. */
  lemma AppendedAreNew(before: seq<WorkerQueue.Entry<Payload>>, p: seq<WorkerQueue.Entry<Payload>>, r: seq<WorkerQueue.Entry<Payload>>, n: nat)
    requires forall e :: e in before ==> e.ticket < n
    requires |r| >= |p| && r[..|p|] == p
    requires forall k :: |p| <= k < |r| ==> r[k].ticket >= n
    ensures forall e :: e in before ==> (e in r <==> e in p)
  {
    forall e | e in before
      ensures e in r <==> e in p
    {
      if e in p {
        var i :| 0 <= i < |p| && p[i] == e;
        assert r[..|p|][i] == e;
      }
      if e in r {
        var k :| 0 <= k < |r| && r[k] == e;
        if k < |p| {
          assert r[..|p|][k] == e;
        }
      }
    }
  }

  /** Canceling a repository's jobs and then queueing more: of the entries
      pending before, exactly those with another label are still there. */
  lemma CancelThenEnqueue(q: WorkerQueue.Queue<Payload>, tag: Option<string>, jobs: seq<SyncJob>)
    ensures var r := EnqueueAll(WorkerQueue.CancelAllPending(q, tag), jobs);
      WorkerQueue.Valid(q) ==> forall e :: e in q.pending ==> (e in r.pending <==> e.tag != JobLabel(tag))
  {
    if WorkerQueue.Valid(q) {
      var q1 := WorkerQueue.CancelAllPending(q, tag);
      var r := EnqueueAll(q1, jobs);
      EnqueuedJobs(q1, jobs);
      PendingBelowNext(q);
      AppendedAreNew(q.pending, q1.pending, r.pending, q.nextTicket);
    }
  }
}

=== FILE: outcomes.dfy ===
/** Optional values and error-carrying results.

    `Option` stands for a JavaScript value that may be `undefined` (an omitted
    argument, a missing property); `Result` stands for a computation that either
    returns a value or throws. */
module Outcomes {

  datatype Option<+T> = None | Some(value: T) {

    /** The value, or `default` when absent (a JavaScript default parameter). */
    function GetOr(default: T): T {
      match this
      case Some(v) => v
      case None => default
    }
  }

  datatype Result<+T, +E> = Ok(value: T) | Err(error: E) {

    predicate IsFailure() {
      Err?
    }

    function PropagateFailure<U>(): Result<U, E>
      requires Err?
    {
      Err(error)
    }

    function Extract(): T
      requires Ok?
    {
      value
    }
  }

  /** The JavaScript exceptions the modelled code throws. */
  datatype JsError =
    | TypeError(message: string)
    | SyntaxError(message: string)
    | PlainError(message: string)

  /** `items.map(f)` where `f` may throw: the first exception propagates. */
  function MapAll<A, B, E>(items: seq<A>, f: A -> Result<B, E>): (r: Result<seq<B>, E>)
    ensures r.Ok? <==> forall i :: 0 <= i < |items| ==> f(items[i]).Ok?
    ensures r.Ok? ==> |r.value| == |items|
    ensures r.Ok? ==> forall i :: 0 <= i < |items| ==> f(items[i]) == Ok(r.value[i])
    ensures r.Err? ==>
      exists i :: 0 <= i < |items| && f(items[i]) == Err(r.error) && forall j :: 0 <= j < i ==> f(items[j]).Ok?
  {
    if |items| == 0 then Ok([])
    else
      match f(items[0])
      case Err(e) => Err(e)
      case Ok(first) =>
        match MapAll(items[1..], f)
        case Err(e) =>
          assert exists i :: 0 <= i < |items| && f(items[i]) == Err(e) && forall j :: 0 <= j < i ==> f(items[j]).Ok? by {
            var i :| 0 <= i < |items[1..]| && f(items[1..][i]) == Err(e) && forall j :: 0 <= j < i ==> f(items[1..][j]).Ok?;
            assert forall j :: 1 <= j < i + 1 ==> items[j] == items[1..][j - 1];
            assert f(items[i + 1]) == Err(e);
          }
          Err(e)
        case Ok(rest) =>
          assert forall i :: 1 <= i < |items| ==> items[i] == items[1..][i - 1];
          Ok([first] + rest)
  }
}

=== FILE: seqs.dfy ===
/** Sequence helpers shared by the chain resolver, the queue and the mail
    builder: first index, filtering and lodash's first-occurrence
    de-duplication (`_.uniq`, `_.uniqBy`). */
module Seqs {

  /** `Array.prototype.indexOf`: the first index holding `x`, or -1. */
  function FirstIndex<T(==)>(s: seq<T>, x: T): (i: int)
    ensures -1 <= i < |s|
    ensures i == -1 <==> x !in s
    ensures 0 <= i ==> s[i] == x && x !in s[..i]
  {
    if |s| == 0 then -1
    else if s[0] == x then 0
    else
      var j := FirstIndex(s[1..], x);
      assert s[1..][..j + 1] == s[1..j + 2] by { if j >= 0 { } }
      if j == -1 then -1 else j + 1
  }

  predicate NoDuplicates<T(==)>(s: seq<T>) {
    forall i, j :: 0 <= i < j < |s| ==> s[i] != s[j]
  }

  /** The elements of `s` satisfying `p`, in their original order
      (`Array.prototype.filter`). */
  function Filter<T(!new)>(s: seq<T>, p: T -> bool): (r: seq<T>)
    ensures |r| <= |s|
    ensures forall x :: x in r <==> x in s && p(x)
  {
    if |s| == 0 then []
    else (if p(s[0]) then [s[0]] else []) + Filter(s[1..], p)
  }

  /** Filtering distributes over concatenation: it keeps input order. */
  lemma {:induction false} FilterConcat<T(!new)>(a: seq<T>, b: seq<T>, p: T -> bool)
    ensures Filter(a + b, p) == Filter(a, p) + Filter(b, p)
  {
    if |a| == 0 {
      assert a + b == b;
    } else {
      assert (a + b)[1..] == a[1..] + b;
      FilterConcat(a[1..], b, p);
    }
  }

  /** The keys of the elements of `s`. */
  function Keys<T, K>(s: seq<T>, key: T -> K): (ks: seq<K>)
    ensures |ks| == |s|
    ensures forall i :: 0 <= i < |s| ==> ks[i] == key(s[i])
  {
    if |s| == 0 then [] else Keys(s[..|s| - 1], key) + [key(s[|s| - 1])]
  }

  /** A non-empty sequence is its front followed by its last element. */
  lemma LastSplit<T>(s: seq<T>)
    requires |s| > 0
    ensures s == s[..|s| - 1] + [s[|s| - 1]]
  {
  }

  /** The keys of `p + [z]` are those of `p` followed by `z`'s. */
  lemma KeysSnoc<T, K>(p: seq<T>, z: T, key: T -> K)
    ensures Keys(p + [z], key) == Keys(p, key) + [key(z)]
  {
    assert (p + [z])[..|p|] == p;
  }

  /** lodash `_.uniqBy`: keeps, in order, each element whose key has not been
      seen earlier in `s`. */
  function UniqBy<T(!new), K(!new,==)>(s: seq<T>, key: T -> K): (r: seq<T>)
    ensures NoDuplicates(Keys(r, key))
    ensures forall x :: x in r ==> x in s
    ensures forall k :: k in Keys(s, key) <==> k in Keys(r, key)
    decreases |s|
  {
    if |s| == 0 then []
    else
      var p := s[..|s| - 1];
      var z := s[|s| - 1];
      var u := UniqBy(p, key);
      assert s == p + [z];
      KeysSnoc(p, z, key);
      if key(z) in Keys(u, key) then u
      else
        KeysSnoc(u, z, key);
        u + [z]
  }

  function Id<T>(x: T): T { x }

  /** lodash `_.uniq`: first-occurrence de-duplication, `_.uniqBy` with the
      identity as key. */
  function Uniq<T(!new,==)>(s: seq<T>): (r: seq<T>)
    ensures NoDuplicates(r)
    ensures forall x :: x in r <==> x in s
  {
    var r := UniqBy(s, Id);
    KeysIdentity(r);
    KeysIdentity(s);
    r
  }

  lemma KeysIdentity<T>(s: seq<T>)
    ensures Keys(s, Id) == s
  {
  }

  /** `_.uniq` keeps the relative order of first occurrences. */
  lemma UniqKeepsOrder<T(!new)>(s: seq<T>, x: T, y: T)
    requires x in s && y in s
    ensures FirstIndex(Uniq(s), x) < FirstIndex(Uniq(s), y) <==> FirstIndex(s, x) < FirstIndex(s, y)
  {
    assert Uniq(s) == UniqBy(s, Id);
    UniqByKeepsOrder(s, Id, x, y);
  }

  /** The first index of `x` in a concatenation. */
  lemma FirstIndexConcat<T>(a: seq<T>, b: seq<T>, x: T)
    ensures x in a ==> FirstIndex(a + b, x) == FirstIndex(a, x)
    ensures x !in a && x in b ==> FirstIndex(a + b, x) == |a| + FirstIndex(b, x)
  {
    var i := FirstIndex(a + b, x);
    if x in a {
      var j := FirstIndex(a, x);
      assert (a + b)[j] == x;
      assert (a + b)[..i] == a[..i] by { assert i <= j; }
    } else if x in b {
      var j := FirstIndex(b, x);
      assert (a + b)[|a| + j] == x;
      assert i >= |a| by { assert (a + b)[..|a|] == a; }
      assert (a + b)[|a|..i] == b[..i - |a|];
    }
  }

  /** De-duplication keeps the relative order of first occurrences. */
  lemma {:induction false} UniqByKeepsOrder<T(!new), K(!new)>(s: seq<T>, key: T -> K, x: T, y: T)
    requires x in UniqBy(s, key) && y in UniqBy(s, key)
    ensures FirstIndex(UniqBy(s, key), x) < FirstIndex(UniqBy(s, key), y)
        <==> FirstIndex(s, x) < FirstIndex(s, y)
    decreases |s|
  {
    assert x in s;
    var p := s[..|s| - 1];
    var z := s[|s| - 1];
    var u := UniqBy(p, key);
    LastSplit(s);
    KeysSnoc(p, z, key);
    FirstIndexPrefix(p, z, x);
    FirstIndexPrefix(p, z, y);
    if key(z) in Keys(u, key) {
      UniqByKeepsOrder(p, key, x, y);
    } else {
      assert UniqBy(s, key) == u + [z];
      assert z !in p;
      assert z !in u;
      FirstIndexPrefix(u, z, x);
      FirstIndexPrefix(u, z, y);
      if x != z && y != z {
        UniqByKeepsOrder(p, key, x, y);
      }
    }
  }

  lemma {:induction false} FirstIndexPrefix<T>(p: seq<T>, z: T, x: T)
    ensures x in p ==> FirstIndex(p + [z], x) == FirstIndex(p, x)
    ensures x !in p && x == z ==> FirstIndex(p + [z], x) == |p|
  {
    if |p| > 0 {
      assert (p + [z])[1..] == p[1..] + [z];
      FirstIndexPrefix(p[1..], z, x);
    }
  }

  /** The element `_.uniqBy` keeps for a key is the first one with that key. */
  lemma {:induction false} UniqByKeepsFirst<T(!new), K(!new)>(s: seq<T>, key: T -> K, x: T)
    requires x in UniqBy(s, key)
    ensures forall j :: 0 <= j < FirstIndex(s, x) ==> key(s[j]) != key(x)
    decreases |s|
  {
    assert x in s;
    var p := s[..|s| - 1];
    var z := s[|s| - 1];
    var u := UniqBy(p, key);
    LastSplit(s);
    KeysSnoc(p, z, key);
    FirstIndexPrefix(p, z, x);
    if x in u {
      UniqByKeepsFirst(p, key, x);
    } else {
      assert x == z && key(z) !in Keys(u, key);
      forall j | 0 <= j < FirstIndex(s, x)
        ensures key(s[j]) != key(x)
      {
        assert Keys(p, key)[j] == key(s[j]);
      }
    }
  }
}

=== FILE: sync_config.dfy ===
/** Config normalisation (src/get-sync-config.js) after the YAML file has
    been parsed: branch rules, per-repository defaults and `git_config`
    flattening. Loading the file, `path.resolve` of `local_path`, whether a
    regular expression compiles, regular expression matching and semver
    sorting are parameters. */
module SyncConfig {
  import opened Outcomes
  import opened Text
  import Branches

  /** A parsed YAML value as JavaScript sees it. Mapping entries are in
      document order with distinct keys. */
  datatype Yaml =
    | YNull
    | YString(s: string)
    | YNumber(n: int)
    | YBool(b: bool)
    | YList(items: seq<Yaml>)
    | YMap(entries: seq<(string, Yaml)>)

  /** JavaScript truthiness. */
  predicate Truthy(y: Yaml) {
    match y
    case YNull => false
    case YString(s) => s != ""
    case YNumber(n) => n != 0
    case YBool(b) => b
    case _ => true
  }

  /** Reading property `key` of a mapping; `None` is `undefined`. */
  function Lookup(entries: seq<(string, Yaml)>, key: string): (r: Option<Yaml>)
    ensures r.None? <==> forall i :: 0 <= i < |entries| ==> entries[i].0 != key
    ensures r.Some? ==> exists i :: 0 <= i < |entries| && entries[i] == (key, r.value)
  {
    if |entries| == 0 then None
    else if entries[0].0 == key then Some(entries[0].1)
    else Lookup(entries[1..], key)
  }

  /** `_.findKey(obj, val => val === null)`: the first key whose value is
      null. */
  function FindNullKey(entries: seq<(string, Yaml)>): (r: Option<string>)
    ensures r.None? <==> forall i :: 0 <= i < |entries| ==> entries[i].1 != YNull
    ensures r.Some? ==>
      exists i :: 0 <= i < |entries| && entries[i] == (r.value, YNull)
        && forall j :: 0 <= j < i ==> entries[j].1 != YNull
  {
    if |entries| == 0 then None
    else if entries[0].1 == YNull then Some(entries[0].0)
    else
      FindNullKey(entries[1..])
  }

  /** The keys of an array are its indices written in decimal. */
  function IndexEntries(items: seq<Yaml>): (es: seq<(string, Yaml)>)
    ensures |es| == |items|
    ensures forall i :: 0 <= i < |items| ==> es[i] == (NatToString(i), items[i])
  {
    seq(|items|, i requires 0 <= i < |items| => (NatToString(i), items[i]))
  }

  /** How a rule accepts branch names. */
  datatype Filter =
    | NoFilter                  // no `nameFilterFn` at all
    | LiteralName(name: string) // optional directory prefix, then the name
    | Pattern(source: string)   // the `regex` option, slashes stripped

  datatype SortKind = Alphabetical | Semver

  /** A normalised entry of a repository's `branches` list. */
  datatype BranchRule = BranchRule(name: Option<string>, filter: Filter, sort: SortKind)

  /** The literal-name matcher, read as a specification: the branch equals
      the name up to case, or ends with `/` and the name, with no line
      terminator before that `/` (the regular-expression `.` does not match
      one). */
  ghost predicate LiteralMatch(name: string, branch: string) {
    || EqualsIgnoringCase(branch, name)
    || exists i :: 0 <= i < |branch| && branch[i] == '/' && !HasLineTerminator(branch[..i])
         && EqualsIgnoringCase(branch[i + 1..], name)
  }

  /** The case-insensitive test of the expression built from the anchored
      optional "anything then slash" group followed by `name`, for a name
      without regular-expression metacharacters. */
  function LiteralAccepts(name: string, branch: string): (r: bool)
    ensures r <==> LiteralMatch(name, branch)
  {
    LiteralMatchPosition(name, branch);
    var cut := |branch| - |name|;
    && cut >= 0
    && EqualsIgnoringCase(branch[cut..], name)
    && (cut == 0 || (branch[cut - 1] == '/' && !HasLineTerminator(branch[..cut - 1])))
  }

  /** The only place a literal name can sit is the end of the branch. */
  lemma LiteralMatchPosition(name: string, branch: string)
    ensures var cut := |branch| - |name|;
      LiteralMatch(name, branch) <==>
        && cut >= 0
        && EqualsIgnoringCase(branch[cut..], name)
        && (cut == 0 || (branch[cut - 1] == '/' && !HasLineTerminator(branch[..cut - 1])))
  {
    var cut := |branch| - |name|;
    if LiteralMatch(name, branch) {
      if EqualsIgnoringCase(branch, name) {
        assert |Lower(branch)| == |Lower(name)|;
        assert branch[cut..] == branch;
      } else {
        var i :| 0 <= i < |branch| && branch[i] == '/' && !HasLineTerminator(branch[..i])
          && EqualsIgnoringCase(branch[i + 1..], name);
        assert |Lower(branch[i + 1..])| == |Lower(name)|;
        assert i == cut - 1;
      }
    } else if cut == 0 {
      assert branch[cut..] == branch;
    } else if cut > 0 {
      assert !(branch[cut - 1] == '/' && !HasLineTerminator(branch[..cut - 1])
        && EqualsIgnoringCase(branch[cut..], name));
    }
  }

  /** `regex.replace(/^\/?(.*?)\/?$/, '$1')`: at most one leading and one
      trailing `/` removed. A line terminator anywhere makes the expression
      fail to match, and then the text is kept as it is. */
  function StripSlashes(s: string): (r: string)
    ensures HasLineTerminator(s) ==> r == s
    ensures !HasLineTerminator(s) ==>
      exists lead, trail :: lead in ["", "/"] && trail in ["", "/"] && s == lead + r + trail
    ensures !HasLineTerminator(s) && |s| > 0 && s[0] == '/' ==> |r| < |s|
  {
    if HasLineTerminator(s) then s
    else
      var lead := if |s| > 0 && s[0] == '/' then "/" else "";
      var rest := s[|lead|..];
      var trail := if |rest| > 0 && rest[|rest| - 1] == '/' then "/" else "";
      var r := rest[..|rest| - |trail|];
      assert s == lead + r + trail;
      assert lead in ["", "/"] && trail in ["", "/"];
      r
  }

  /** A pattern written between slashes comes back without them. */
  lemma StripSlashesUnwraps(p: string)
    requires !HasLineTerminator(p)
    ensures StripSlashes("/" + p + "/") == p
  {
    var s := "/" + p + "/";
    assert !HasLineTerminator(s) by {
      forall i | 0 <= i < |s|
        ensures !IsLineTerminator(s[i])
      {
        if 0 < i < |s| - 1 {
          assert s[i] == p[i - 1];
        }
      }
    }
    assert s[1..] == p + "/";
    assert (p + "/")[..|p|] == p;
  }

  /** A single trailing slash is always removed, whether or not a leading
      one was there. */
  lemma StripSlashesDropsTrailing(p: string)
    requires !HasLineTerminator(p)
    requires |p| == 0 || p[0] != '/'
    ensures StripSlashes(p + "/") == p
  {
    var s := p + "/";
    assert !HasLineTerminator(s) by {
      forall i | 0 <= i < |s|
        ensures !IsLineTerminator(s[i])
      {
        if i < |p| {
          assert s[i] == p[i];
        }
      }
    }
    if |p| == 0 {
      assert s == "/";
    } else {
      assert s[0] == p[0];
      assert s[..|s| - 1] == p;
    }
  }

  /** A pattern with no slash at either end is kept as it is. */
  lemma StripSlashesKeepsBarePattern(p: string)
    requires !HasLineTerminator(p)
    requires |p| == 0 || (p[0] != '/' && p[|p| - 1] != '/')
    ensures StripSlashes(p) == p
  {
  }

  /** The source text `parseBranchConfig` hands to `new RegExp` for a rule,
      if any: the anchored literal pattern of a string rule, or the
      slash-stripped `regex` of an object rule whose `regex` is a truthy
      string. */
  function RulePattern(y: Yaml): Option<string> {
    match y
    case YString(s) => Some("^(.*/)?" + s + "$")
    case YMap(entries) =>
      var regex := Lookup(entries, "regex");
      if regex.Some? && regex.value.YString? && Truthy(regex.value) then Some(StripSlashes(regex.value.s))
      else None
    case _ => None
  }

  /** `parseBranchConfig(branch)` merged over the default (alphabetical)
      sort. A null entry is an object to `typeof` and throws on `.regex`.
      `compiles` tells whether `new RegExp` accepts a source text; when it
      does not, the constructor throws a SyntaxError. */
  function ParseBranchConfig(y: Yaml, compiles: string -> bool): (r: Result<BranchRule, JsError>)
    ensures y.YString? && compiles("^(.*/)?" + y.s + "$") ==> r == Ok(BranchRule(Some(y.s), LiteralName(y.s), Alphabetical))
    ensures y.YNull? ==> r.Err?
    ensures y.YMap? ==> (r.Ok? ==> r.value.name == FindNullKey(y.entries))
    ensures y.YMap? ==>
      (r.Ok? && r.value.filter == NoFilter <==> !(Lookup(y.entries, "regex").Some? && Truthy(Lookup(y.entries, "regex").value)))
    ensures y.YMap? ==>
      (r.Ok? && r.value.filter.Pattern? <==>
         Lookup(y.entries, "regex").Some? && Lookup(y.entries, "regex").value.YString?
         && Truthy(Lookup(y.entries, "regex").value) && compiles(StripSlashes(Lookup(y.entries, "regex").value.s)))
    ensures y.YMap? && r.Ok? && r.value.filter.Pattern? ==>
      r.value.filter.source == StripSlashes(Lookup(y.entries, "regex").value.s)
    ensures r.Ok? ==> (r.value.sort == Semver <==> y.YMap? && Lookup(y.entries, "sort") == Some(YString("semver")))
    ensures (y.YNumber? || y.YBool?) ==> r == Ok(BranchRule(None, NoFilter, Alphabetical))
    ensures (y.YMap? && Lookup(y.entries, "regex").Some? && Truthy(Lookup(y.entries, "regex").value)
             && !Lookup(y.entries, "regex").value.YString?) ==> r.Err? && r.error.TypeError?
    ensures y.YList? ==> r == Ok(BranchRule(FindNullKey(IndexEntries(y.items)), NoFilter, Alphabetical))
    ensures (r.Err? && r.error.SyntaxError?) <==> RulePattern(y).Some? && !compiles(RulePattern(y).value)
    ensures r.Err? && !r.error.SyntaxError? ==> r.error.TypeError?
  {
    if RulePattern(y).Some? && !compiles(RulePattern(y).value) then
      Err(SyntaxError("Invalid regular expression: /" + RulePattern(y).value + "/"))
    else
      match y
      case YString(s) => Ok(BranchRule(Some(s), LiteralName(s), Alphabetical))
      case YNull => Err(TypeError("Cannot read properties of null (reading 'regex')"))
      case YMap(entries) =>
        var regex := Lookup(entries, "regex");
        var sort := if Lookup(entries, "sort") == Some(YString("semver")) then Semver else Alphabetical;
        if regex.Some? && Truthy(regex.value) then
          match regex.value
          case YString(source) => Ok(BranchRule(FindNullKey(entries), Pattern(StripSlashes(source)), sort))
          case _ => Err(TypeError("branch.regex.replace is not a function"))
        else Ok(BranchRule(FindNullKey(entries), NoFilter, sort))
      case YList(items) => Ok(BranchRule(FindNullKey(IndexEntries(items)), NoFilter, Alphabetical))
      case _ => Ok(BranchRule(None, NoFilter, Alphabetical))
  }

  /** The rule as the chain resolver uses it: the regular-expression test,
      the semver sorter and the alphabetical sorter are parameters. */
  function ChainRule(rule: BranchRule, regexTest: (string, string) -> bool,
                     semverAsc: seq<string> -> seq<string>,
                     alphabetical: seq<string> -> seq<string>): (r: Branches.Rule)
    ensures r.nameFilter.None? <==> rule.filter == NoFilter
    ensures rule.filter.LiteralName? ==>
      forall b :: Branches.Accepts(r, b) <==> LiteralMatch(rule.filter.name, b)
    ensures rule.filter.Pattern? ==>
      forall b :: Branches.Accepts(r, b) <==> regexTest(rule.filter.source, b)
    ensures r.sort == Some(if rule.sort == Semver then semverAsc else alphabetical)
  {
    var filter := match rule.filter
      case NoFilter => None
      case LiteralName(name) => Some((b: string) => LiteralAccepts(name, b))
      case Pattern(source) => Some((b: string) => regexTest(source, b));
    Branches.Rule(filter, Some(if rule.sort == Semver then semverAsc else alphabetical))
  }

  /** One flattened `git_config` entry; `None` is `undefined`. */
  datatype GitConfigEntry = GitConfigEntry(name: Option<string>, value: Option<Yaml>)

  /** `{name: _.keys(obj)[0], value: obj[name]}` for one `git_config` item. */
  function GitConfigItem(y: Yaml): (r: Result<GitConfigEntry, JsError>)
    ensures y.YMap? && |y.entries| > 0 ==>
      r == Ok(GitConfigEntry(Some(y.entries[0].0), Some(y.entries[0].1)))
    ensures r.Err? <==> y.YNull?
  {
    match y
    case YMap(entries) =>
      if |entries| > 0 then Ok(GitConfigEntry(Some(entries[0].0), Some(entries[0].1)))
      else Ok(GitConfigEntry(None, Lookup(entries, "undefined")))
    case YNull => Err(TypeError("Cannot read properties of null (reading 'undefined')"))
    case YList(items) =>
      if |items| > 0 then Ok(GitConfigEntry(Some("0"), Some(items[0])))
      else Ok(GitConfigEntry(None, None))
    case YString(s) =>
      if |s| > 0 then Ok(GitConfigEntry(Some("0"), Some(YString([s[0]]))))
      else Ok(GitConfigEntry(None, None))
    case _ => Ok(GitConfigEntry(None, None))
  }

  /** `parseGitConfig(syncConfig)`: `_.map(syncConfig.git_config, ...)`;
      lodash maps over a list, over the values of a mapping, over the
      characters of a string, and gives `[]` for anything else. */
  function ParseGitConfig(top: Yaml): (r: Result<seq<GitConfigEntry>, JsError>)
    ensures top.YNull? ==> r.Err?
    ensures top.YMap? && Lookup(top.entries, "git_config").None? ==> r == Ok([])
    ensures top.YMap? && Lookup(top.entries, "git_config") == Some(YNull) ==> r == Ok([])
  {
    match top
    case YNull => Err(TypeError("Cannot read properties of null (reading 'git_config')"))
    case YMap(entries) =>
      (match Lookup(entries, "git_config")
       case None => Ok([])
       case Some(gc) =>
        (match gc
         case YList(items) => MapAll(items, GitConfigItem)
         case YMap(es) => MapAll(seq(|es|, i requires 0 <= i < |es| => es[i].1), GitConfigItem)
         case YString(s) => MapAll(seq(|s|, i requires 0 <= i < |s| => YString([s[i]])), GitConfigItem)
         case _ => Ok([])))
    case _ => Ok([])
  }

  /** Single-key `git_config` mappings flatten to `{name, value}` pairs, in
      order. */
  lemma GitConfigSingleKeyEntries(top: Yaml, items: seq<Yaml>)
    requires top.YMap? && Lookup(top.entries, "git_config") == Some(YList(items))
    requires forall i :: 0 <= i < |items| ==> items[i].YMap? && |items[i].entries| == 1
    ensures ParseGitConfig(top).Ok?
    ensures |ParseGitConfig(top).value| == |items|
    ensures forall i :: 0 <= i < |items| ==>
      ParseGitConfig(top).value[i] == GitConfigEntry(Some(items[i].entries[0].0), Some(items[i].entries[0].1))
  {
  }

  /** A normalised repository entry. */
  datatype RepositoryConfig = RepositoryConfig(
    name: Option<string>,
    remoteUrl: Option<Yaml>,
    remoteName: Yaml,
    localPath: string,
    branches: seq<BranchRule>)

  /** The per-repository normalisation inside `getSyncConfig`. `resolve`
      is `path.resolve` against the project root, which makes a relative
      path absolute and also normalises an absolute one. */
  function ParseRepository(y: Yaml, resolve: string -> string, compiles: string -> bool): (r: Result<RepositoryConfig, JsError>)
    ensures r.Ok? ==> y.YMap?
    ensures r.Ok? ==> r.value.name == FindNullKey(y.entries)
    ensures r.Ok? ==> r.value.remoteUrl == Lookup(y.entries, "remote_url")
    ensures r.Ok? ==> r.value.remoteName == Lookup(y.entries, "remote_name").GetOr(YString("origin"))
    ensures r.Ok? ==> Lookup(y.entries, "local_path").Some? && Lookup(y.entries, "local_path").value.YString?
    ensures r.Ok? ==> r.value.localPath == resolve(Lookup(y.entries, "local_path").value.s)
    ensures r.Ok? ==> Lookup(y.entries, "branches").Some? && Lookup(y.entries, "branches").value.YList?
    ensures r.Ok? ==> MapAll(Lookup(y.entries, "branches").value.items, b => ParseBranchConfig(b, compiles)) == Ok(r.value.branches)
    ensures r.Ok? <==>
      && y.YMap?
      && Lookup(y.entries, "local_path").Some? && Lookup(y.entries, "local_path").value.YString?
      && Lookup(y.entries, "branches").Some? && Lookup(y.entries, "branches").value.YList?
      && MapAll(Lookup(y.entries, "branches").value.items, b => ParseBranchConfig(b, compiles)).Ok?
    ensures (y.YMap? && Lookup(y.entries, "local_path").Some? && Lookup(y.entries, "local_path").value.YString?
             && Lookup(y.entries, "branches").Some? && Lookup(y.entries, "branches").value.YList?
             && MapAll(Lookup(y.entries, "branches").value.items, b => ParseBranchConfig(b, compiles)).Err?) ==>
      r == Err(MapAll(Lookup(y.entries, "branches").value.items, b => ParseBranchConfig(b, compiles)).error)
  {
    match y
    case YMap(entries) =>
      var localPath := Lookup(entries, "local_path");
      var branches := Lookup(entries, "branches");
      if !(localPath.Some? && localPath.value.YString?) then
        Err(TypeError("The \"paths[1]\" argument must be of type string"))
      else if !(branches.Some? && branches.value.YList?) then
        Err(TypeError("branches.map is not a function"))
      else
        var p := localPath.value.s;
        (match MapAll(branches.value.items, b => ParseBranchConfig(b, compiles))
         case Err(e) => Err(e)
         case Ok(rules) =>
           Ok(RepositoryConfig(
             FindNullKey(entries),
             Lookup(entries, "remote_url"),
             Lookup(entries, "remote_name").GetOr(YString("origin")),
             resolve(p),
             rules)))
    case _ => Err(TypeError("Cannot destructure the repository entry"))
  }

  datatype Config = Config(gitConfig: seq<GitConfigEntry>, repositories: seq<RepositoryConfig>)

  /** `getSyncConfig` from the parsed YAML document on. */
  function GetSyncConfig(top: Yaml, resolve: string -> string, compiles: string -> bool): (r: Result<Config, JsError>)
    ensures r.Ok? ==> top.YMap? && ParseGitConfig(top) == Ok(r.value.gitConfig)
    ensures r.Ok? ==> Lookup(top.entries, "repositories").Some? && Lookup(top.entries, "repositories").value.YList?
    ensures r.Ok? ==>
      MapAll(Lookup(top.entries, "repositories").value.items, y => ParseRepository(y, resolve, compiles)) == Ok(r.value.repositories)
    ensures r.Ok? <==>
      && ParseGitConfig(top).Ok?
      && top.YMap?
      && Lookup(top.entries, "repositories").Some? && Lookup(top.entries, "repositories").value.YList?
      && MapAll(Lookup(top.entries, "repositories").value.items, y => ParseRepository(y, resolve, compiles)).Ok?
    ensures ParseGitConfig(top).Err? ==> r == Err(ParseGitConfig(top).error)
  {
    match ParseGitConfig(top)
    case Err(e) => Err(e)
    case Ok(gitConfig) =>
      if !top.YMap? then Err(TypeError("Cannot read properties of undefined (reading 'map')"))
      else
        match Lookup(top.entries, "repositories")
        case Some(YList(items)) =>
          (match MapAll(items, y => ParseRepository(y, resolve, compiles))
           case Err(e) => Err(e)
           case Ok(repos) => Ok(Config(gitConfig, repos)))
        case _ => Err(TypeError("syncConfig.repositories.map is not a function"))
  }
}

=== FILE: text.dfy ===
/** String helpers with the semantics of the JavaScript string methods the
    modelled code calls: `includes`, `indexOf`, `substr`, `replace` with a
    string pattern, `join` and `split`, plus ASCII case folding. */
module Text {

  /** `pat` occurs in `s` starting at index `i`. */
  predicate OccursAt(s: string, pat: string, i: int) {
    0 <= i && i + |pat| <= |s| && s[i..i + |pat|] == pat
  }

  /** `String.prototype.includes`. */
  predicate Contains(s: string, pat: string) {
    exists i :: 0 <= i <= |s| && OccursAt(s, pat, i)
  }

  predicate IsSuffix(suffix: string, s: string) {
    |suffix| <= |s| && s[|s| - |suffix|..] == suffix
  }

  /** `String.prototype.indexOf`: the first index where `pat` occurs, or -1. */
  function IndexOf(s: string, pat: string): (r: int)
    ensures -1 <= r <= |s|
    ensures r == -1 <==> !Contains(s, pat)
    ensures r >= 0 ==> OccursAt(s, pat, r)
    ensures r >= 0 ==> forall j :: 0 <= j < r ==> !OccursAt(s, pat, j)
  {
    IndexFrom(s, pat, 0)
  }

  function IndexFrom(s: string, pat: string, k: nat): (r: int)
    ensures r == -1 ==> forall j :: k <= j ==> !OccursAt(s, pat, j)
    ensures r != -1 ==> k <= r && OccursAt(s, pat, r)
    ensures r != -1 ==> forall j :: k <= j < r ==> !OccursAt(s, pat, j)
    decreases |s| - k
  {
    if k + |pat| > |s| then -1
    else if s[k..k + |pat|] == pat then k
    else IndexFrom(s, pat, k + 1)
  }

  /** `String.prototype.substr(start)` for a non-negative start: the suffix
      from `start`, or "" when `start` is past the end. */
  function SubstrFrom(s: string, start: nat): (r: string)
    ensures IsSuffix(r, s)
    ensures start <= |s| ==> r == s[start..]
    ensures start >= |s| ==> r == ""
  {
    if start >= |s| then "" else s[start..]
  }

  /** `String.prototype.replace` with a string pattern: only the first
      occurrence of `pat` is replaced. */
  function ReplaceFirst(s: string, pat: string, rep: string): (r: string)
    ensures !Contains(s, pat) ==> r == s
    ensures Contains(s, pat) ==>
      exists i :: 0 <= i <= |s| && OccursAt(s, pat, i) && (forall j :: 0 <= j < i ==> !OccursAt(s, pat, j))
        && r == s[..i] + rep + s[i + |pat|..]
  {
    var i := IndexOf(s, pat);
    if i < 0 then s else s[..i] + rep + s[i + |pat|..]
  }

  /** `Array.prototype.join`. */
  function Join(parts: seq<string>, sep: string): string {
    if |parts| == 0 then ""
    else if |parts| == 1 then parts[0]
    else parts[0] + sep + Join(parts[1..], sep)
  }

  /** `String.prototype.split` with a one-character separator. */
  function Split(s: string, c: char): (r: seq<string>)
    ensures |r| >= 1
    ensures forall i :: 0 <= i < |r| ==> c !in r[i]
  {
    if |s| == 0 then [""]
    else
      var rest := Split(s[1..], c);
      if s[0] == c then [""] + rest
      else [[s[0]] + rest[0]] + rest[1..]
  }

  /** Splitting undoes joining when no part contains the separator. */
  lemma {:induction false} SplitJoin(parts: seq<string>, c: char)
    requires |parts| >= 1
    requires forall i :: 0 <= i < |parts| ==> c !in parts[i]
    ensures Split(Join(parts, [c]), c) == parts
  {
    if |parts| == 1 {
      SplitNoSeparator(parts[0], c);
    } else {
      SplitJoin(parts[1..], c);
      SplitAfterSeparator(parts[0], Join(parts[1..], [c]), c);
      assert parts == [parts[0]] + parts[1..];
    }
  }

  /** Joining undoes splitting. */
  lemma {:induction false} JoinSplit(s: string, c: char)
    ensures Join(Split(s, c), [c]) == s
  {
    if |s| > 0 {
      var rest := Split(s[1..], c);
      JoinSplit(s[1..], c);
      if s[0] == c {
        assert Join([""] + rest, [c]) == "" + [c] + Join(rest, [c]);
      } else {
        var r := [[s[0]] + rest[0]] + rest[1..];
        if |rest| == 1 {
          assert r == [[s[0]] + rest[0]];
        } else {
          assert r[1..] == rest[1..];
          assert Join(rest, [c]) == rest[0] + [c] + Join(rest[1..], [c]);
        }
        assert s == [s[0]] + s[1..];
      }
    }
  }

  lemma {:induction false} SplitNoSeparator(a: string, c: char)
    requires c !in a
    ensures Split(a, c) == [a]
  {
    if |a| > 0 {
      SplitNoSeparator(a[1..], c);
      assert a == [a[0]] + a[1..];
    }
  }

  lemma {:induction false} SplitAfterSeparator(a: string, t: string, c: char)
    requires c !in a
    ensures Split(a + [c] + t, c) == [a] + Split(t, c)
  {
    if |a| == 0 {
      assert a + [c] + t == [c] + t;
      assert ([c] + t)[1..] == t;
    } else {
      assert (a + [c] + t)[1..] == a[1..] + [c] + t;
      SplitAfterSeparator(a[1..], t, c);
      assert a == [a[0]] + a[1..];
    }
  }

  /** ASCII lower-casing of one character; every other character is kept. */
  function LowerChar(c: char): char {
    if 'A' <= c <= 'Z' then (c as int + 32) as char else c
  }

  function Lower(s: string): (r: string)
    ensures |r| == |s|
    ensures forall i :: 0 <= i < |s| ==> r[i] == LowerChar(s[i])
  {
    if |s| == 0 then [] else [LowerChar(s[0])] + Lower(s[1..])
  }

  /** Equality up to ASCII case. */
  predicate EqualsIgnoringCase(a: string, b: string) {
    Lower(a) == Lower(b)
  }

  /** ECMAScript line terminators, which the regular-expression `.` does not
      match. */
  predicate IsLineTerminator(c: char) {
    c == '\n' || c == '\r' || c == '\U{2028}' || c == '\U{2029}'
  }

  predicate HasLineTerminator(s: string) {
    exists i :: 0 <= i < |s| && IsLineTerminator(s[i])
  }

  /** Decimal rendering of a number, as JavaScript's `String(n)` gives it for
      integers. */
  function IntToString(n: int): (r: string)
    ensures |r| >= 1
  {
    if n < 0 then "-" + NatToString(-n) else NatToString(n)
  }

  function NatToString(n: nat): (r: string)
    ensures |r| >= 1
    ensures forall i :: 0 <= i < |r| ==> '0' <= r[i] <= '9'
    decreases n
  {
    var d := [(('0' as int) + n % 10) as char];
    if n < 10 then d else NatToString(n / 10) + d
  }
}

=== FILE: worker_queue.dfy ===
/** The single-worker job queue (src/worker-queue.js) as a state machine.
    Every accepted message gets a ticket (the promise `addMessage` returns);
    the log records, in order, each processor invocation, each fulfilled
    processor promise and each cancellation. Timers and promise scheduling
    are abstracted to the steps `Process` and `Settle`. */
module WorkerQueue {
  import opened Outcomes

  /** A message handed to `addMessage`; only whether `processor` is a
      function matters to the queue. */
  datatype Message<P> = Message(processorIsFunction: bool, payload: P)

  /** A queued message with its ticket and cancellation label. */
  datatype Entry<P> = Entry(ticket: nat, tag: string, message: Message<P>)

  /** The message being processed. A processor whose promise rejected leaves
      the job `stalled`: `processingWorker` stays a rejected promise and the
      loop never resumes. */
  datatype Job<P> = Job(entry: Entry<P>, stalled: bool)

  datatype EventKind = Invoked | Resolved | Canceled
  datatype Event = Event(kind: EventKind, ticket: nat)

  datatype Queue<P> = Queue(pending: seq<Entry<P>>, inFlight: Option<Job<P>>, nextTicket: nat, log: seq<Event>)

  function Tickets<P(!new)>(es: seq<Entry<P>>): (ts: seq<nat>)
    ensures |ts| == |es|
    ensures forall i :: 0 <= i < |es| ==> ts[i] == es[i].ticket
  {
    seq(|es|, i requires 0 <= i < |es| => es[i].ticket)
  }

  /** The tickets of the log's events of one kind, in log order. */
  function TicketsOf(log: seq<Event>, kind: EventKind): seq<nat> {
    if |log| == 0 then []
    else TicketsOf(log[..|log| - 1], kind) + (if log[|log| - 1].kind == kind then [log[|log| - 1].ticket] else [])
  }

  /** The invocations and fulfilments of the log, in order. */
  function Flow(log: seq<Event>): seq<Event> {
    if |log| == 0 then []
    else Flow(log[..|log| - 1]) + (if log[|log| - 1].kind != Canceled then [log[|log| - 1]] else [])
  }

  predicate Increasing(ts: seq<nat>) {
    forall i, j :: 0 <= i < j < |ts| ==> ts[i] < ts[j]
  }

  /** Position `k` of the flow holds an invocation when even, and when odd
      the fulfilment of the invocation just before it. */
  predicate InTurn(flow: seq<Event>, k: nat)
    requires k < |flow|
  {
    if k % 2 == 0 then flow[k].kind == Invoked
    else flow[k].kind == Resolved && flow[k].ticket == flow[k - 1].ticket
  }

  /** Single flight: invocations and fulfilments alternate, each fulfilment
      belonging to the invocation just before it. */
  predicate Alternates(flow: seq<Event>) {
    forall k: nat :: k < |flow| ==> InTurn(flow, k)
  }

  /** The order in which messages are, or will be, processed: those already
      invoked, then those still pending. */
  function Order<P(!new)>(q: Queue<P>): seq<nat> {
    TicketsOf(q.log, Invoked) + Tickets(q.pending)
  }

  /** The queue invariant: processing follows ticket order, every ticket
      issued is accounted for exactly once as processed-or-pending or
      canceled, and at most one processor runs at a time. */
  predicate Valid<P(!new)>(q: Queue<P>) {
    var order := Order(q);
    var flow := Flow(q.log);
    && Increasing(order)
    && (forall i :: 0 <= i < |order| ==> order[i] < q.nextTicket)
    && CanceledApart(q)
    && Accounted(q)
    && Alternates(flow)
    && (q.inFlight.Some? <==> |flow| % 2 == 1)
    && (q.inFlight.Some? ==> flow[|flow| - 1] == Event(Invoked, q.inFlight.value.entry.ticket))
  }

  /** Every canceled ticket was issued and is not due to be processed. */
  predicate CanceledApart<P(!new)>(q: Queue<P>) {
    var canceled := TicketsOf(q.log, Canceled);
    forall i :: 0 <= i < |canceled| ==> canceled[i] < q.nextTicket && canceled[i] !in Order(q)
  }

  /** Every ticket issued is due to be processed, or has been, or was canceled. */
  predicate Accounted<P(!new)>(q: Queue<P>) {
    forall t: nat :: t < q.nextTicket ==> t in Order(q) || t in TicketsOf(q.log, Canceled)
  }

  lemma {:induction false} TicketsOfAppend(log: seq<Event>, es: seq<Event>, kind: EventKind)
    ensures TicketsOf(log + es, kind) == TicketsOf(log, kind) + TicketsOf(es, kind)
    decreases |es|
  {
    if |es| == 0 {
      assert log + es == log;
    } else {
      var l := log + es;
      assert l[..|l| - 1] == log + es[..|es| - 1];
      TicketsOfAppend(log, es[..|es| - 1], kind);
    }
  }

  lemma {:induction false} FlowAppend(log: seq<Event>, es: seq<Event>)
    ensures Flow(log + es) == Flow(log) + Flow(es)
    decreases |es|
  {
    if |es| == 0 {
      assert log + es == log;
    } else {
      var l := log + es;
      assert l[..|l| - 1] == log + es[..|es| - 1];
      FlowAppend(log, es[..|es| - 1]);
    }
  }

  /** `startWorkerQueue()`: an empty queue with nothing running. */
  function Start<P(!new)>(): (q: Queue<P>)
    ensures Valid(q)
    ensures q.pending == [] && q.inFlight.None?
  {
    Queue([], None, 0, [])
  }

  /** `addMessage(message, label = '')`. An undefined or null message, or a
      processor that is not a function, throws a TypeError and leaves the
      queue as it was; otherwise the message is queued last under a fresh
      ticket, which is returned. */
  function AddMessage<P(!new)>(q: Queue<P>, message: Option<Message<P>>, tag: Option<string>): (r: Result<(Queue<P>, nat), JsError>)
    ensures r.Err? <==> message.None? || !message.value.processorIsFunction
    ensures r.Err? ==> r.error.TypeError?
    ensures r.Ok? ==> var (q', t) := r.value;
      && q'.pending == q.pending + [Entry(t, tag.GetOr(""), message.value)]
      && q'.inFlight == q.inFlight && q'.log == q.log
      && t == q.nextTicket && q'.nextTicket == q.nextTicket + 1
      && (Valid(q) ==> Valid(q') && t !in Order(q) && t !in TicketsOf(q.log, Canceled))
  {
    if message.None? || !message.value.processorIsFunction then
      Err(TypeError("addMessage argument message.processor must be a function"))
    else
      var t := q.nextTicket;
      var q' := q.(pending := q.pending + [Entry(t, tag.GetOr(""), message.value)], nextTicket := t + 1);
      assert Tickets(q'.pending) == Tickets(q.pending) + [t];
      assert Order(q') == Order(q) + [t];
      Ok((q', t))
  }

  /** `processMessage`: when nothing runs and something is pending, the
      first pending message is taken off the queue and its processor
      invoked. */
  function Process<P(!new)>(q: Queue<P>): (r: Queue<P>)
    ensures q.inFlight.Some? || q.pending == [] ==> r == q
    ensures q.inFlight.None? && q.pending != [] ==>
      && r.inFlight == Some(Job(q.pending[0], false))
      && r.pending == q.pending[1..]
      && r.log == q.log + [Event(Invoked, q.pending[0].ticket)]
    ensures Order(r) == Order(q)
    ensures Valid(q) ==> Valid(r)
  {
    if q.inFlight.Some? || q.pending == [] then q
    else
      var e := q.pending[0];
      var r := q.(pending := q.pending[1..], inFlight := Some(Job(e, false)),
                  log := q.log + [Event(Invoked, e.ticket)]);
      AppendEvent(q.log, Event(Invoked, e.ticket));
      assert Tickets(q.pending) == [e.ticket] + Tickets(r.pending);
      ProcessKeepsValid(q, r);
      r
  }

  /** How appending one event changes the log's projections. */
  lemma AppendEvent(log: seq<Event>, ev: Event)
    ensures forall kind :: TicketsOf(log + [ev], kind) == TicketsOf(log, kind) + (if ev.kind == kind then [ev.ticket] else [])
    ensures Flow(log + [ev]) == Flow(log) + (if ev.kind != Canceled then [ev] else [])
  {
    assert (log + [ev])[..|log|] == log;
  }

  /** Appending the next invocation (when the flow is even) or the
      fulfilment of the last invocation (when it is odd) keeps the flow
      alternating. */
  lemma AlternatesAppend(flow: seq<Event>, ev: Event)
    requires Alternates(flow)
    requires |flow| % 2 == 0 ==> ev.kind == Invoked
    requires |flow| % 2 == 1 ==> ev.kind == Resolved && ev.ticket == flow[|flow| - 1].ticket
    ensures Alternates(flow + [ev])
  {
    var flow' := flow + [ev];
    forall k: nat | k < |flow'|
      ensures InTurn(flow', k)
    {
      if k < |flow| {
        assert InTurn(flow, k);
        if k % 2 == 1 {
          assert flow'[k - 1] == flow[k - 1];
        }
      } else if k % 2 == 1 {
        assert flow'[k - 1] == flow[|flow| - 1];
      }
    }
  }

  lemma ProcessKeepsValid<P(!new)>(q: Queue<P>, r: Queue<P>)
    requires q.inFlight.None? && q.pending != []
    requires r.inFlight == Some(Job(q.pending[0], false)) && r.nextTicket == q.nextTicket
    requires Order(r) == Order(q) && TicketsOf(r.log, Canceled) == TicketsOf(q.log, Canceled)
    requires Flow(r.log) == Flow(q.log) + [Event(Invoked, q.pending[0].ticket)]
    ensures Valid(q) ==> Valid(r)
  {
    if Valid(q) {
      AlternatesAppend(Flow(q.log), Event(Invoked, q.pending[0].ticket));
    }
  }

  lemma SettleKeepsValid<P(!new)>(q: Queue<P>, r: Queue<P>)
    requires q.inFlight.Some? && r.inFlight.None? && r.nextTicket == q.nextTicket && r.pending == q.pending
    requires TicketsOf(r.log, Invoked) == TicketsOf(q.log, Invoked)
    requires TicketsOf(r.log, Canceled) == TicketsOf(q.log, Canceled)
    requires Flow(r.log) == Flow(q.log) + [Event(Resolved, q.inFlight.value.entry.ticket)]
    ensures Valid(q) ==> Valid(r)
  {
    if Valid(q) {
      assert Order(r) == Order(q);
      AlternatesAppend(Flow(q.log), Event(Resolved, q.inFlight.value.entry.ticket));
    }
  }

  /** The running processor's promise settles. Fulfilled: the job is done,
      `processingWorker` is reset and the message's promise resolves.
      Rejected: the job stays in `processingWorker` for good. Nothing
      happens when no job runs or the running one already stalled. */
  function Settle<P(!new)>(q: Queue<P>, fulfilled: bool): (r: Queue<P>)
    ensures q.inFlight.None? || q.inFlight.value.stalled ==> r == q
    ensures q.inFlight.Some? && !q.inFlight.value.stalled && fulfilled ==>
      r.inFlight.None? && r.log == q.log + [Event(Resolved, q.inFlight.value.entry.ticket)]
    ensures q.inFlight.Some? && !fulfilled ==> r.inFlight.Some? && r.inFlight.value.stalled && r.log == q.log
    ensures r.pending == q.pending && Order(r) == Order(q)
    ensures Valid(q) ==> Valid(r)
  {
    match q.inFlight
    case None => q
    case Some(job) =>
      if job.stalled then q
      else if !fulfilled then q.(inFlight := Some(job.(stalled := true)))
      else
        var ev := Event(Resolved, job.entry.ticket);
        AppendEvent(q.log, ev);
        var r := q.(inFlight := None, log := q.log + [ev]);
        SettleKeepsValid(q, r);
        r
  }

  /** The pending entries `cancelAllPending(label)` keeps, in queue order. */
  function Remaining<P(!new)>(p: seq<Entry<P>>, tag: string): (r: seq<Entry<P>>)
    ensures forall e :: e in r <==> e in p && e.tag != tag
    ensures |r| <= |p|
  {
    if |p| == 0 then []
    else (if p[0].tag != tag then [p[0]] else []) + Remaining(p[1..], tag)
  }

  /** The cancellation of each pending entry with the tag, in queue order. */
  function CancelEvents<P(!new)>(p: seq<Entry<P>>, tag: string): seq<Event> {
    if |p| == 0 then []
    else (if p[0].tag == tag then [Event(Canceled, p[0].ticket)] else []) + CancelEvents(p[1..], tag)
  }

  lemma {:induction false} CancelEventsShape<P(!new)>(p: seq<Entry<P>>, tag: string)
    ensures TicketsOf(CancelEvents(p, tag), Invoked) == []
    ensures Flow(CancelEvents(p, tag)) == []
    ensures forall t :: t in TicketsOf(CancelEvents(p, tag), Canceled) <==>
      exists i :: 0 <= i < |p| && p[i].ticket == t && p[i].tag == tag
  {
    if |p| > 0 {
      var head: seq<Event> := if p[0].tag == tag then [Event(Canceled, p[0].ticket)] else [];
      CancelEventsShape(p[1..], tag);
      TicketsOfAppend(head, CancelEvents(p[1..], tag), Invoked);
      TicketsOfAppend(head, CancelEvents(p[1..], tag), Canceled);
      FlowAppend(head, CancelEvents(p[1..], tag));
      assert head == [] || head[..0] == [];
      forall t
        ensures t in TicketsOf(CancelEvents(p, tag), Canceled) <==>
          exists i :: 0 <= i < |p| && p[i].ticket == t && p[i].tag == tag
      {
        if exists i :: 0 <= i < |p| && p[i].ticket == t && p[i].tag == tag {
          var i :| 0 <= i < |p| && p[i].ticket == t && p[i].tag == tag;
          if i > 0 {
            assert p[1..][i - 1] == p[i];
          }
        }
        if t in TicketsOf(CancelEvents(p[1..], tag), Canceled) {
          var i :| 0 <= i < |p[1..]| && p[1..][i].ticket == t && p[1..][i].tag == tag;
          assert p[i + 1] == p[1..][i];
        }
      }
    }
  }

  lemma DropIncreasing(a: seq<nat>, x: nat, b: seq<nat>)
    requires Increasing(a + [x] + b)
    ensures Increasing(a + b)
  {
    var s := a + [x] + b;
    var s' := a + b;
    forall i, j | 0 <= i < j < |s'|
      ensures s'[i] < s'[j]
    {
      var i' := if i < |a| then i else i + 1;
      var j' := if j < |a| then j else j + 1;
      assert s'[i] == s[i'] && s'[j] == s[j'];
    }
  }

  /** Removing entries from the pending part keeps the processing order
      increasing. */
  lemma {:induction false} RemainingIncreasing<P(!new)>(prefix: seq<nat>, p: seq<Entry<P>>, tag: string)
    requires Increasing(prefix + Tickets(p))
    ensures Increasing(prefix + Tickets(Remaining(p, tag)))
    decreases |p|
  {
    if |p| == 0 {
      assert prefix + Tickets(p) == prefix + Tickets(Remaining(p, tag));
    } else {
      var t := p[0].ticket;
      var rest := Remaining(p[1..], tag);
      TicketsCons(prefix, p);
      if p[0].tag != tag {
        var s := (prefix + [t]) + Tickets(p[1..]);
        assert Increasing(s);
        RemainingIncreasing(prefix + [t], p[1..], tag);
        TicketsCons(prefix, Remaining(p, tag));
      } else {
        DropIncreasing(prefix, t, Tickets(p[1..]));
        RemainingIncreasing(prefix, p[1..], tag);
        assert Remaining(p, tag) == rest;
      }
    }
  }

  lemma TicketsCons<P(!new)>(prefix: seq<nat>, p: seq<Entry<P>>)
    requires |p| > 0
    ensures prefix + Tickets(p) == prefix + [p[0].ticket] + Tickets(p[1..])
  {
    assert Tickets(p) == [p[0].ticket] + Tickets(p[1..]);
  }

  /** `cancelAllPending(cancelLabel = '')`: every pending message with the
      tag is canceled, in queue order, and leaves the queue; the running
      job and the other pending messages are untouched. */
  function CancelAllPending<P(!new)>(q: Queue<P>, tag: Option<string>): (r: Queue<P>)
    ensures r.inFlight == q.inFlight && r.nextTicket == q.nextTicket
    ensures forall e :: e in r.pending <==> e in q.pending && e.tag != tag.GetOr("")
    ensures |r.pending| <= |q.pending|
    ensures forall t :: t in TicketsOf(r.log, Canceled) <==>
      t in TicketsOf(q.log, Canceled) || exists i :: 0 <= i < |q.pending| && q.pending[i].ticket == t && q.pending[i].tag == tag.GetOr("")
    ensures TicketsOf(r.log, Invoked) == TicketsOf(q.log, Invoked)
    ensures Valid(q) ==> Valid(r)
  {
    var lbl := tag.GetOr("");
    CancelLog(q, lbl);
    CancelKeepsValid(q, lbl);
    AfterCancel(q, lbl)
  }

  lemma CancelKeepsValid<P(!new)>(q: Queue<P>, lbl: string)
    ensures Valid(q) ==> Valid(AfterCancel(q, lbl))
  {
    if Valid(q) {
      var r := AfterCancel(q, lbl);
      var order' := Order(r);
      assert Increasing(order') && forall i :: 0 <= i < |order'| ==> order'[i] < r.nextTicket by {
        CancelOrder(q, lbl);
        forall i | 0 <= i < |order'|
          ensures order'[i] < q.nextTicket
        {
          assert order'[i] in Order(q);
          var j :| 0 <= j < |Order(q)| && Order(q)[j] == order'[i];
        }
      }
      CancelCanceled(q, lbl);
      CancelConserves(q, lbl);
      assert Flow(r.log) == Flow(q.log) by {
        CancelLog(q, lbl);
      }
    }
  }

  function AfterCancel<P(!new)>(q: Queue<P>, lbl: string): Queue<P> {
    q.(pending := Remaining(q.pending, lbl), log := q.log + CancelEvents(q.pending, lbl))
  }

  lemma CancelLog<P(!new)>(q: Queue<P>, lbl: string)
    ensures var r := AfterCancel(q, lbl);
      && TicketsOf(r.log, Invoked) == TicketsOf(q.log, Invoked)
      && Flow(r.log) == Flow(q.log)
      && (forall t :: t in TicketsOf(r.log, Canceled) <==>
            t in TicketsOf(q.log, Canceled) || exists i :: 0 <= i < |q.pending| && q.pending[i].ticket == t && q.pending[i].tag == lbl)
  {
    var es := CancelEvents(q.pending, lbl);
    CancelEventsShape(q.pending, lbl);
    TicketsOfAppend(q.log, es, Invoked);
    TicketsOfAppend(q.log, es, Canceled);
    FlowAppend(q.log, es);
  }

  lemma CancelOrder<P(!new)>(q: Queue<P>, lbl: string)
    requires Valid(q)
    ensures Increasing(Order(AfterCancel(q, lbl)))
    ensures forall t :: t in Order(AfterCancel(q, lbl)) ==> t in Order(q)
  {
    var r := AfterCancel(q, lbl);
    CancelLog(q, lbl);
    var inv := TicketsOf(q.log, Invoked);
    RemainingIncreasing(inv, q.pending, lbl);
    forall t | t in Order(r)
      ensures t in Order(q)
    {
      if t !in inv {
        var m :| 0 <= m < |r.pending| && Tickets(r.pending)[m] == t;
        assert r.pending[m] in q.pending;
        var j :| 0 <= j < |q.pending| && q.pending[j] == r.pending[m];
        assert Tickets(q.pending)[j] == t;
      }
    }
  }

  lemma CancelConserves<P(!new)>(q: Queue<P>, lbl: string)
    requires Valid(q)
    ensures Accounted(AfterCancel(q, lbl))
  {
    var r := AfterCancel(q, lbl);
    CancelLog(q, lbl);
    forall t: nat | t < r.nextTicket
      ensures t in Order(r) || t in TicketsOf(r.log, Canceled)
    {
      if t in Tickets(q.pending) {
        var i :| 0 <= i < |q.pending| && Tickets(q.pending)[i] == t;
        if q.pending[i].tag != lbl {
          assert q.pending[i] in r.pending;
          var j :| 0 <= j < |r.pending| && r.pending[j] == q.pending[i];
          assert Tickets(r.pending)[j] == t;
        }
      }
    }
  }

  lemma CancelCanceled<P(!new)>(q: Queue<P>, lbl: string)
    requires Valid(q)
    ensures CanceledApart(AfterCancel(q, lbl))
  {
    var r := AfterCancel(q, lbl);
    CancelLog(q, lbl);
    CancelOrder(q, lbl);
    var inv := TicketsOf(q.log, Invoked);
    var order := Order(q);
    var canceled' := TicketsOf(r.log, Canceled);
    forall k | 0 <= k < |canceled'|
      ensures canceled'[k] < r.nextTicket && canceled'[k] !in Order(r)
    {
      var t := canceled'[k];
      if t in TicketsOf(q.log, Canceled) {
        var c := TicketsOf(q.log, Canceled);
        var j :| 0 <= j < |c| && c[j] == t;
      } else {
        var i :| 0 <= i < |q.pending| && q.pending[i].ticket == t && q.pending[i].tag == lbl;
        assert order[|inv| + i] == t;
        CanceledLeavesOrder(q, lbl, i);
      }
    }
  }

  /** A canceled entry's ticket occurs nowhere else in the processing order. */
  lemma CanceledLeavesOrder<P(!new)>(q: Queue<P>, lbl: string, i: int)
    requires Valid(q)
    requires 0 <= i < |q.pending| && q.pending[i].tag == lbl
    ensures q.pending[i].ticket !in Order(AfterCancel(q, lbl))
  {
    var r := AfterCancel(q, lbl);
    var t := q.pending[i].ticket;
    var inv := TicketsOf(q.log, Invoked);
    var order := Order(q);
    CancelLog(q, lbl);
    assert order[|inv| + i] == t;
    assert t !in inv by {
      forall m | 0 <= m < |inv|
        ensures inv[m] != t
      {
        assert inv[m] == order[m];
      }
    }
    assert t !in Tickets(r.pending) by {
      forall m | 0 <= m < |r.pending|
        ensures Tickets(r.pending)[m] != t
      {
        var e := r.pending[m];
        assert e in q.pending && e.tag != lbl;
        var j :| 0 <= j < |q.pending| && q.pending[j] == e;
        assert order[|inv| + j] == e.ticket;
      }
    }
    assert Order(r) == inv + Tickets(r.pending);
  }

  /** One step of the environment driving the queue. */
  datatype Op<P> =
    | Add(message: Option<Message<P>>, tag: Option<string>)
    | Step
    | Complete(fulfilled: bool)
    | Cancel(tag: Option<string>)

  function Apply<P(!new)>(q: Queue<P>, op: Op<P>): Queue<P> {
    match op
    case Add(m, l) => (match AddMessage(q, m, l) case Ok((q', _)) => q' case Err(_) => q)
    case Step => Process(q)
    case Complete(f) => Settle(q, f)
    case Cancel(l) => CancelAllPending(q, l)
  }

  function Run<P(!new)>(q: Queue<P>, ops: seq<Op<P>>): Queue<P>
    decreases |ops|
  {
    if |ops| == 0 then q else Run(Apply(q, ops[0]), ops[1..])
  }

  /** Whatever the interleaving of additions, steps, settlements and
      cancellations, the queue invariant holds. */
  lemma {:induction false} RunKeepsValid<P(!new)>(q: Queue<P>, ops: seq<Op<P>>)
    requires Valid(q)
    ensures Valid(Run(q, ops))
    decreases |ops|
  {
    if |ops| > 0 {
      RunKeepsValid(Apply(q, ops[0]), ops[1..]);
    }
  }

  /** From a fresh queue, under any sequence of operations: processors are
      invoked in the order their messages were added, never two at a time,
      and a canceled message is never processed. */
  lemma QueueSafety<P(!new)>(ops: seq<Op<P>>)
    ensures var q := Run(Start<P>(), ops);
      && Increasing(TicketsOf(q.log, Invoked))
      && Alternates(Flow(q.log))
      && forall t :: t in TicketsOf(q.log, Canceled) ==> t !in TicketsOf(q.log, Invoked)
  {
    var q := Run(Start<P>(), ops);
    RunKeepsValid(Start<P>(), ops);
    var inv := TicketsOf(q.log, Invoked);
    assert forall i :: 0 <= i < |inv| ==> Order(q)[i] == inv[i];
    forall t | t in TicketsOf(q.log, Canceled)
      ensures t !in inv
    {
      var c := TicketsOf(q.log, Canceled);
      var k :| 0 <= k < |c| && c[k] == t;
      assert t !in Order(q);
    }
  }

  /** Once a processor's promise rejects, no further processor is ever
      invoked, whatever else happens. */
  lemma {:induction false} RejectionStallsQueue<P(!new)>(q: Queue<P>, ops: seq<Op<P>>)
    requires q.inFlight.Some? && q.inFlight.value.stalled
    ensures TicketsOf(Run(q, ops).log, Invoked) == TicketsOf(q.log, Invoked)
    ensures Run(q, ops).inFlight == q.inFlight
    decreases |ops|
  {
    if |ops| > 0 {
      var q' := Apply(q, ops[0]);
      assert TicketsOf(q'.log, Invoked) == TicketsOf(q.log, Invoked) && q'.inFlight == q.inFlight;
      RejectionStallsQueue(q', ops[1..]);
    }
  }

  /** Drives the queue until it is idle, every processor fulfilling: all
      pending messages are processed, in queue order. */
  method Drain<P(!new)>(q: Queue<P>) returns (r: Queue<P>)
    requires Valid(q)
    requires q.inFlight.None? || !q.inFlight.value.stalled
    ensures Valid(r)
    ensures r.pending == [] && r.inFlight.None?
    ensures TicketsOf(r.log, Invoked) == Order(q)
    ensures TicketsOf(r.log, Canceled) == TicketsOf(q.log, Canceled)
  {
    r := q;
    while r.pending != [] || r.inFlight.Some?
      invariant Valid(r)
      invariant r.inFlight.None? || !r.inFlight.value.stalled
      invariant Order(r) == Order(q)
      invariant TicketsOf(r.log, Canceled) == TicketsOf(q.log, Canceled)
      decreases 2 * |r.pending| + (if r.inFlight.Some? then 1 else 0)
    {
      if r.inFlight.Some? {
        var t := r.inFlight.value.entry.ticket;
        TicketsOfAppend(r.log, [Event(Resolved, t)], Canceled);
        assert [Event(Resolved, t)][..0] == [];
        r := Settle(r, true);
      } else {
        var t := r.pending[0].ticket;
        TicketsOfAppend(r.log, [Event(Invoked, t)], Canceled);
        assert [Event(Invoked, t)][..0] == [];
        r := Process(r);
      }
    }
    assert Tickets(r.pending) == [];
    assert Order(r) == TicketsOf(r.log, Invoked);
  }
}
